=== FILE: README.md ===
# python-traceview request layer, in Dafny

This project models the request-building core of the TraceView API client
(danriti/python-traceview) and proves properties of it. The client turns
attribute calls such as `tv.latency.server.series("Default")` into one
authenticated HTTP request. The model covers:

- the transport (`traceview/api.py`). The query parameters always carry the
  API key. The URL is the fixed authority plus the API version plus a
  relative path. The verb is checked before anything is sent. A 200 yields
  the envelope's `data` and any other status raises.
- the older descriptor layer (`traceview/resources.py`). Each descriptor
  builds its own URL and performs the GET itself. `Layer`, `Series`,
  `Summary` and `ByLayer` format their template and store the result back
  into the template attribute.
- the newer descriptors (`latency.py`, `host.py`, `app.py`, `discovery.py`,
  `errors.py`, `error.py`, `total_request.py`). Each resolves a path from a
  class-level template into its own `path` attribute and calls an
  inherited operation. `discovery.Layer` still overwrites its template.
- the namespace trees: latency with server and client, errors with rate,
  and organization with users.
- the result formatters (`traceview/formatters.py`): `identity` and
  `tuplify`.

The source targets Python 2.7, the only version its `setup.py` declares,
and the model follows Python 2.7's semantics. JSON strings decode to
`unicode`, so `split()` splits at Unicode whitespace. A decoded dict
iterates its keys in hash order; the model lists an object's members in
that iteration order and takes the order as given. `True`, `False` and
`None` are not keywords. `namedtuple` accepts `True` and `False` as field
names; `None` passes its checks but the class it generates raises
SyntaxError, which the model does not check.

The model is functional. A descriptor call takes the descriptor's state and
returns the new state together with what the call did. The network is a
parameter: `transport` maps the request that is sent to the response that
comes back. An `Exchange` records the requests sent (none or one) and the
result or the error raised. The newer descriptors call `get`, `delete` or
`__call__` on a base class (`traceview/resource.py`) that does not define
them. Their call is therefore modelled as a `Dispatch` record: the
operation, the resolved path, and the arguments passed on. Python's
`str.format` is modelled for keyword fields, positional fields (which
raise IndexError, as no positional argument is ever passed, or ValueError
for an index beyond 2^63-1) and `{{`/`}}`
escapes (`PyFormat.Format`). Within a field it raises errors in Python
2.7's order: a malformed conversion (`{x!}`, `{x!rr}`) is a ValueError
before any lookup, a name whose leading digits spell a number beyond
2^63-1 is a ValueError, a positional name an IndexError, and an absent
keyword a KeyError, even when a conversion or format spec follows it. A
segment-template view (`Lit`/`Hole`, `PyFormat.Render`) sits next to it,
and the lemma `PyFormat.FormatSource` shows that the two agree.

Behaviour of the code worth noting, which the model follows:

- No "configuration error" is raised for a descriptor without a template.
  The `path` property formats `None` into the string
  `.../api-v2/None`, so the guard at `traceview/resources.py:58` can never
  fire. `Resources.Path` states this.
- The older descriptors raise a plain `Exception(status, url, text)` on a
  non-200 status (`Api.StatusException`), not `requests.HTTPError`.
- `tuplify` on a number, a boolean or null raises `TypeError` (Python's
  `in` operator on such values). It does not pass them through.
- An unsupported verb raises `requests.HTTPError` naming the lower-cased
  verb (`traceview/api.py:73`, `Api.UnsupportedMethod`), not a dedicated
  protocol error. The check comes before any request, so nothing is sent.

Modules: `Wrappers`, `Json`, `PyFormat`, `Namespace` and `Resource` are
shared definitions. `Api`, `Resources`, `Latency`, `Host`, `App`,
`Discovery`, `Errors`, `Error`, `TotalRequest` and `Formatters` follow the
source files one to one.

## Model

| member | source | states |
|---|---|---|
| Api.BuildQueryParams | traceview/api.py:87-96 | `key` always maps to the client's API key. A dict argument keeps every other entry unchanged and gains no key but `key`. A missing or non-dict argument yields exactly `{key: api_key}`. |
| Api.BuildQueryParamsIdempotent | traceview/api.py:93-96 | Building the parameters from already-built parameters changes nothing. |
| Api.CallerKeyIgnored | traceview/api.py:95 | Whatever value the caller passes under `key` has no effect on the parameters sent. |
| Api.Url | traceview/api.py:84-85 | The URL is `https://api.tv.appneta.com/api-v2/` followed by the path. |
| Api.UrlRoundTrip | traceview/api.py:84-85 | Stripping the fixed prefix from a built URL gives back the path. |
| Api.UrlInjective | traceview/api.py:84-85 | Distinct paths are sent to distinct URLs. |
| Api.ParseMethod | traceview/api.py:71-73 | A verb is accepted iff its lower-cased name is one of get, post, delete, and the accepted verb's name is that lower-cased name. |
| Api.ParseMethodName | traceview/api.py:27-31 | Each supported verb's name is accepted as that verb. |
| Api.LowerIdempotent | traceview/api.py:71 | Lower-casing twice is lower-casing once. |
| Api.ParseMethodIgnoresCase | traceview/api.py:71-72 | The gate gives the same answer for a name and its lower-cased form. |
| Api.Payload | traceview/api.py:82 | The payload exists iff the body is a JSON object with a `data` member. It is the value of the last `data` member, as `json.loads` keeps the last of repeated members. |
| Api.Classify | traceview/api.py:79-82 | A non-200 status raises HTTPError with the status, the URL and the body text. The result is a value iff the status is 200 and the body has `data`, and that value is the body's `data`. |
| Api.Request | traceview/api.py:60-82 | Nothing is sent iff the verb is rejected, and then the error names the lower-cased verb. Otherwise exactly one request goes to `Url(path)` with the built parameters, and its response is classified. |
| Api.Call | traceview/api.py:36-58 | `get`, `post` and `delete` send exactly one request with their own verb, the same path and the caller's keyword arguments plus the key. Arguments Python cannot bind raise before anything is sent. |
| Resources.Path | traceview/resources.py:34-36 | The descriptor's URL is `Api.Url` of its template. A descriptor without a template addresses `.../api-v2/None`. |
| Resources.Classify | traceview/resources.py:63-66 | A non-200 status raises with the status, the URL and the body. A 200 yields the body's `data`. |
| Resources.Get | traceview/resources.py:49-66 | One GET to the descriptor's URL with the given parameters, or an empty dict when none are given. The response is classified as above. |
| Resources.Call | traceview/resources.py:30-32 | One GET whose parameters are the keyword arguments plus the API key. Positional arguments are dropped. A `self` keyword cannot be bound and raises before anything is sent. |
| Resources.FirstPath | traceview/resources.py:150-171 | On a fresh descriptor the template formats without error. It yields `layers/<app>` for Layer and `latency/<app>/<data_type>/<series, summary or by-layer>` for the others. |
| Resources.Invoke | traceview/resources.py:97-244 | An `app` or `self` keyword cannot be bound and raises before anything is stored or sent. A missing template or a formatting error also stores and sends nothing. Otherwise the formatted path replaces the template, and the inherited call runs on the updated descriptor. A fresh descriptor requests the URL of its first path. |
| Resources.SecondCallRepeatsFirst | traceview/resources.py:171-172 | After a first call with a brace-free app, a second call with any app leaves the descriptor unchanged and requests the first call's URL (for calls whose keywords can be bound). |
| Resources.FirstPathInjective | traceview/resources.py:103-243 | Different apps resolve to different first paths. |
| Resources.SecondCallWrong | traceview/resources.py:207-208 | For two different apps, the second call does not go to the second app's path. |
| Resources.OrganizationShape | traceview/resources.py:74-86 | The organization has one attribute, `users`. The organization addresses `organization` and `users` addresses `organization/users`. |
| Resources.ServerShape | traceview/resources.py:116-128 | The latency tree has `server` and `client` in that order. `server.series`, `server.summary` and `server.by_layer` are descriptors of that kind with data type "server". |
| Resources.ClientShape | traceview/resources.py:131-135 | `client.series` and `client.summary` carry data type "client". `client.by_layer` does not exist. |
| Latency.Resolve | traceview/latency.py:46-80 | Each template formats without error, to `latency/<app>/<data_type>/` plus series, summary or by-layer. |
| Latency.Call | traceview/latency.py:69-80 | A call writes only `path`, to the formatted template. It hands the remaining arguments unchanged to the inherited `__call__`. |
| Latency.CallsIndependent | traceview/latency.py:142-152 | A call made after another call resolves and dispatches exactly as on a fresh descriptor. The data type is never changed. |
| Latency.Shape | traceview/latency.py:15-43 | The root has children `server` and `client` and is no descriptor itself. Every operation exists under `server` with data type "server". Under `client`, all but `by_layer` exist, with data type "client". |
| Latency.SeriesSymmetry | traceview/latency.py:31-42 | The server and client series of one app differ only in the data-type segment. |
| Host.HostsOfApp | traceview/host.py:17-30 | The filtered template formats to `app/<app>/hosts`. |
| Host.HostPath | traceview/host.py:20-41 | The deletion template formats to `hosts/<host_id>`. |
| Host.Get | traceview/host.py:23-33 | A truthy app lists `app/<app>/hosts`, and None or "" lists `hosts`. The path is stored and the other arguments are passed on unchanged. |
| Host.Delete | traceview/host.py:35-42 | Deletion targets `hosts/<host_id>`. The other arguments are passed on unchanged. |
| Host.CallsIndependent | traceview/host.py:17-42 | A listing after a deletion, and a deletion after a listing, resolve as on a fresh descriptor. |
| Host.InstrumentationGet | traceview/host.py:45-56 | The versions template formats to `hosts/<host_id>/versions`. The other arguments are passed on unchanged. |
| App.Get | traceview/app.py:27-29 | The listing always targets `apps`, with every argument passed on. |
| App.Delete | traceview/app.py:31-37 | The deletion template formats to `app/<app_name>`. The other arguments are passed on unchanged. |
| App.GetAfterDelete | traceview/app.py:23-37 | A listing after any deletion still targets `apps`. |
| Discovery.FormatLayerPATH | traceview/discovery.py:95-104 | The layer template formats to `layers/<app>`. |
| Discovery.LayerCall | traceview/discovery.py:97-105 | A formatting error changes nothing. Otherwise the formatted path replaces the template and is dispatched with the arguments unchanged. A fresh descriptor dispatches `layers/<app>`. |
| Discovery.LayerReusesFirstApp | traceview/discovery.py:104-105 | After a first call with a brace-free app `a`, a second call with any app dispatches `layers/<a>`. |
| Discovery.LayerSecondCallWrong | traceview/discovery.py:104 | For two different apps, the second dispatch is not the one for the second app. |
| Discovery.LayerFieldAppBreaksNextCall | traceview/discovery.py:104 | A first app of the form `{n}`, for a plain keyword `n` other than `app`, makes every later call raise KeyError(n). |
| Discovery.LayerConversionAppBreaksNextCall | traceview/discovery.py:104 | A first app `{n!c}`, a plain keyword with a conversion, makes every later call raise KeyError(n), because the keyword is looked up before the conversion; only for `n` = `app` does the model stop at the conversion. |
| Discovery.LayerPositionalAppBreaksNextCall | traceview/discovery.py:104 | A first app `{}` or `{<digits>}` makes every later call raise IndexError, or ValueError when the digits spell an index beyond 2^63-1. |
| Discovery.FixedLayerCall | traceview/discovery.py:95-105 | The corrected descriptor dispatches `layers/<app>` on every call and keeps the template. |
| Discovery.FixedLayerCallsIndependent | traceview/discovery.py:95-105 | With the correction, the second call goes to the second app. |
| Errors.RateCall | traceview/errors.py:24-51 | The template formats to `errors/<app>/rate`. Only `path` is written and the other arguments are passed on. |
| Errors.CallsIndependent | traceview/errors.py:50-51 | Each call depends only on its own app. |
| Errors.Shape | traceview/errors.py:15-21 | The errors namespace has exactly the attribute `rate`, a descriptor with no path yet. |
| Error.Get | traceview/error.py:15-26 | The template formats to `errors/<app>/rate`. The other arguments are passed on to `get`. |
| Error.CallsIndependent | traceview/error.py:25-26 | Each call depends only on its own app. |
| TotalRequest.Get | traceview/total_request.py:15-26 | The template formats to `total_requests/<app>/series`. The other arguments are passed on to `get`. |
| TotalRequest.CallsIndependent | traceview/total_request.py:25-26 | Each call depends only on its own app. |
| Formatters.Identity | traceview/formatters.py:13-14 | The result is the input. |
| Formatters.TupleName | traceview/formatters.py:45 | The type-name template formats to the class name followed by `Tuple`. |
| Formatters.DefaultTupleName | traceview/formatters.py:17-45 | Without a class name, records are named `ResultTuple`. |
| Formatters.Contains | traceview/formatters.py:36 | Python's `in`: key membership for an object, element equality for a list, substring for a string. Null, numbers and booleans raise TypeError. |
| Formatters.FieldNames | traceview/formatters.py:46 | A string is split at commas and Unicode whitespace, and an object gives its keys. A list is accepted iff every element is a string, a boolean or null; the names are the strings themselves and `True`, `False` or `None`. Any other list raises ValueError. Null, numbers and booleans raise TypeError. |
| Formatters.SplitJoin | traceview/formatters.py:46 | Comma-joined field names that hold no comma or whitespace split back into the same names. |
| Formatters.Iterate | traceview/formatters.py:47 | Iteration visits a list's elements, a string's characters or an object's keys. The other values cannot be iterated. |
| Formatters.Rows | traceview/formatters.py:47 | Rows succeed iff every item unpacks to exactly one value per field, and otherwise raise TypeError. There is one record per item, in order, and it holds that item's values. |
| Formatters.TuplifyDict | traceview/formatters.py:50-53 | It succeeds iff the keys are distinct, giving one record named `<class>Tuple`. Its fields are the keys in the dict's iteration order, so its `_asdict()` lists the entries in that order. Each key's attribute holds that key's value. |
| Formatters.IsTimeseries | traceview/formatters.py:36 | It raises TypeError exactly for null, numbers and booleans. Otherwise it holds iff both `fields` and `items` are keys of an object, elements of a list or substrings of a string. |
| Formatters.TuplifyTimeseries | traceview/formatters.py:44-47 | A non-object raises TypeError. A missing `fields` raises KeyError. Invalid field names raise what the names raise, and duplicate names raise ValueError, before `items` is read. A missing `items` raises KeyError. Items that cannot be iterated, or rows that do not unpack, raise TypeError. Success gives one record per item, in order. |
| Formatters.Tuplify | traceview/formatters.py:17-41 | The timeseries test runs first and its error propagates. Timeseries data goes to the timeseries path. Any other object gives one record. Other values come back unchanged. It never raises KeyError, since the test guards both subscripts. |
| Formatters.TuplifyTimeseriesRows | traceview/formatters.py:44-47 | Timeseries data with distinct fields and full-width rows gives one record per row, in order, each named `<class>Tuple`. Attribute `fields[i]` of record j holds `items[j][i]`. |
| Formatters.TuplifyTimeseriesErrors | traceview/formatters.py:44-47 | Timeseries data with a repeated field name raises ValueError. With distinct names, a row not as wide as the field list raises TypeError. |
| Formatters.AttrAt | traceview/formatters.py:46-47 | With distinct field names, attribute `fields[i]` reads `values[i]`. |
| Formatters.TuplifyDictRoundTrip | traceview/formatters.py:50-53 | An object without `fields` gives one record whose `_asdict()` is the object's entries in iteration order, and whose every attribute reads that key's value. |
| Formatters.TuplifyPassThrough | traceview/formatters.py:36-41 | Null, numbers and booleans raise TypeError. A list without the string "fields" comes back unchanged. A list holding both markers raises TypeError when subscripted. |

## Left out

- HTTP I/O, redirects, logging and JSON decoding: the transport is a function parameter, and a response carries its body already decoded (`Response.json`).
- The `traceview/__init__.py` facade, `setup.py`, `traceview/organization.py` and `traceview/annotation.py`: wiring, packaging and constant paths. `traceview/resource.py` stores only the api handle and is modelled as the `Dispatch` record.
- The after-request hook that the tests expect: `Api.__init__` takes only the key, so there is nothing to model.
- `total_requests.summary`, which the interface tests expect: `traceview/total_request.py` defines only the series.
- The API handle held by the newer descriptors, and what the inherited call does with a `Dispatch`: the base class does not define it.
- The side effect of `build_query_params` on the caller's dict, which it updates in place. The model returns the new parameters.
- Descriptor arguments that Python cannot bind, such as an `app` keyword given twice: the newer descriptors (including `Discovery.LayerCall`) are modelled for well-formed calls. The older descriptors model the clash (`Resources.Invoke` for `app` and `self`, `Resources.Call` for `self`).
- The `Assign` descriptor (`traceview/app.py:17-19`) and the static listings `App`, `Domain`, `Controller` and `Action` of `traceview/discovery.py`: each only declares a constant `PATH`, which nothing reads: their base `Resource` (`traceview/resource.py`) defines no call that would. There is no behaviour to model.
- Non-string `app`, `host_id`, `app_name` and `data_type` values: `str.format` would insert their `str()`. The model takes strings.
- Floating-point JSON numbers: `Json.JNum` holds integers.
- Api.Lower: only ASCII letters are lower-cased; Python's `str.lower` also folds other Unicode letters.
- PyFormat.Format: a well-formed conversion (`!r`), a format spec (`:>8`) or attribute and index access (`.x`, `[0]`) on a passed keyword, and a nested field whatever its name, are not interpreted; the model stops with `Unsupported` there. Python may still raise for them (an unknown conversion character is a ValueError only after the lookup), which the model does not distinguish. No class template uses them, but once `Layer`, `Series`, `Summary` or `ByLayer` has stored a caller's app text as its template, such a field can occur. `Discovery.LayerCall` and `Resources.Invoke` inherit this gap on a descriptor that has already been called.
- PyFormat.Format: descriptor arguments (`app`, `data_type`, `host_id`, `app_name`, `class_name`) are taken as byte strings, like the templates they are formatted into. Python 2.7 raises UnicodeEncodeError when a `unicode` argument holding non-ASCII text is formatted into a byte template; the model formats any character. `Latency.Resolve`, `Host.HostPath`, `Discovery.LayerCall` and `Resources.Invoke` inherit this.
- PyFormat.Format: the positional index limit is `PY_SSIZE_T_MAX` of a 64-bit build (2^63-1); a 32-bit build stops at 2^31-1.
- Formatters.FieldNames: a non-ASCII name, which Python 2.7's `str()` rejects with UnicodeEncodeError, is accepted. A `null` list element gives the name `None`, which the model accepts; Python's generated class raises SyntaxError for it. Identifier validity of field and type names (`namedtuple` rejects names that are not identifiers, are keywords or start with `_`) is not checked. Only duplicate names raise ValueError. Dynamic class creation is not modelled.
- Formatters.TuplifyDict: the field order is the order in which the decoded dict iterates its keys. Under Python 2.7 that is hash order, which the model does not compute; the ordered `_asdict()` claim is relative to it. Entries that repeat a key, which a decoded dict never holds, raise ValueError in the model.
- Formatters.TuplifyDictRoundTrip: as for `TuplifyDict`, the `_asdict()` order is the dict's iteration order, taken as given.
- Formatters.Tuplify: records are plain values; namedtuple behaviour beyond attribute access and `_asdict()` is not modelled.
- URL encoding: the source performs none, and app names are inserted verbatim in the model too.

## Findings

| source | as written | input that shows it | evidently intended | confidence | as-written member | corrected member |
|---|---|---|---|---|---|---|
| traceview/resources.py:171 | `Series.__call__` stores the formatted path in `self.PATH`, so the template is gone after the first call. `Summary` (:207), `ByLayer` (:243) and `Layer` (:112) do the same. | `series("A")` then `series("B")` on one descriptor: the second GET goes to `latency/A/server/series`. | Resolve the class template afresh on each call into a separate attribute, as `traceview/latency.py:79` does. | high; not executed | Resources.SecondCallWrong | Latency.CallsIndependent |
| traceview/discovery.py:104 | `Layer.__call__` overwrites `self.PATH` with the formatted path. | `layer("A")` then `layer("B")` dispatches `layers/A` twice. `layer("{x}")` makes every later call raise KeyError('x'), and `layer("{0}")` makes it raise IndexError. | Keep `PATH` as a template and write the resolved path to `path`. | high; not executed | Discovery.LayerSecondCallWrong | Discovery.FixedLayerCallsIndependent |

=== FILE: api.dfy ===
/** The transport of traceview/api.py: one authenticated request to the
    fixed API authority, whose query parameters always carry the API key,
    and whose response is either the envelope's `data` or an error.
    The network itself is a parameter: `transport` maps the request that
    is sent to the response that comes back. */
module Api {
  import opened Wrappers
  import opened Json
  import PyFormat

  const Authority: string := "https://api.tv.appneta.com"
  const Version: string := "api-v2"

  /** `requests.codes.ok`. */
  const StatusOk: int := 200

  /** The reserved query parameter that carries the API key. */
  const KeyParam: string := "key"

  /** The verbs the client may send. */
  datatype Method = GET | POST | DELETE

  function MethodName(m: Method): string
  {
    match m
    case GET => "get"
    case POST => "post"
    case DELETE => "delete"
  }

  /** The list of method names the client accepts, in its declared order. */
  const SupportedMethods: seq<string> := ["get", "post", "delete"]

  /** `str.lower` on ASCII letters. */
  function LowerChar(c: char): char
  {
    if 'A' <= c <= 'Z' then (c as int + 32) as char else c
  }

  function Lower(s: string): (r: string)
    ensures |r| == |s|
    ensures forall i :: 0 <= i < |s| ==> r[i] == LowerChar(s[i])
  {
    if s == [] then [] else [LowerChar(s[0])] + Lower(s[1..])
  }

  /** The verb gate: the name is lower-cased and accepted only when it is
      one of the supported names. */
  function ParseMethod(verb: string): (r: Option<Method>)
    ensures r.Some? <==> Lower(verb) in SupportedMethods
    ensures r.Some? ==> MethodName(r.value) == Lower(verb)
  {
    var m := Lower(verb);
    if m == "get" then Some(GET)
    else if m == "post" then Some(POST)
    else if m == "delete" then Some(DELETE)
    else None
  }

  /** Every verb's own name passes the gate and names that verb again. */
  lemma ParseMethodName(m: Method)
    ensures ParseMethod(MethodName(m)) == Some(m)
  {
    LowerIdentity(MethodName(m));
  }

  lemma LowerIdentity(s: string)
    requires forall i :: 0 <= i < |s| ==> !('A' <= s[i] <= 'Z')
    ensures Lower(s) == s
  {
  }

  /** Case does not matter to the gate. */
  lemma {:induction false} LowerIdempotent(s: string)
    ensures Lower(Lower(s)) == Lower(s)
  {
    var l := Lower(s);
    assert forall i :: 0 <= i < |l| ==> LowerChar(l[i]) == l[i];
  }

  lemma ParseMethodIgnoresCase(s: string)
    ensures ParseMethod(s) == ParseMethod(Lower(s))
  {
    LowerIdempotent(s);
  }

  /** The `params` argument of `_build_query_params`: left out, a dict, or
      any value that is not a dict (a list, a string, a number, ...). */
  datatype ParamsArg = Omitted | Dict(d: map<string, Json>) | NotDict

  type QueryParams = map<string, Json>

  /** The caller's dict (or an empty one) with the API key stored last, so
      that no caller-supplied `key` survives. */
  function BuildQueryParams(apiKey: string, params: ParamsArg): (r: QueryParams)
    ensures KeyParam in r && r[KeyParam] == JStr(apiKey)
    ensures params.Dict? ==> r.Keys == params.d.Keys + {KeyParam}
    ensures params.Dict? ==> forall k :: k in params.d && k != KeyParam ==> r[k] == params.d[k]
    ensures !params.Dict? ==> r == map[KeyParam := JStr(apiKey)]
  {
    var base := if params.Dict? then params.d else map[];
    base[KeyParam := JStr(apiKey)]
  }

  /** Building twice is building once. */
  lemma BuildQueryParamsIdempotent(apiKey: string, params: ParamsArg)
    ensures BuildQueryParams(apiKey, Dict(BuildQueryParams(apiKey, params)))
         == BuildQueryParams(apiKey, params)
  {
  }

  /** Whatever the caller passes under `key` is discarded. */
  lemma CallerKeyIgnored(apiKey: string, d: map<string, Json>, v: Json)
    ensures BuildQueryParams(apiKey, Dict(d[KeyParam := v])) == BuildQueryParams(apiKey, Dict(d))
  {
  }

  /** The absolute URL of a path relative to the API version. */
  function Url(path: string): (u: string)
    ensures u == "https://api.tv.appneta.com/api-v2/" + path
  {
    Authority + "/" + Version + "/" + path
  }

  const UrlBase: string := "https://api.tv.appneta.com/api-v2/"

  /** The path a URL was built from, if it was built by `Url`. */
  function PathOfUrl(u: string): Option<string>
  {
    if |u| >= |UrlBase| && u[..|UrlBase|] == UrlBase then Some(u[|UrlBase|..]) else None
  }

  lemma UrlRoundTrip(path: string)
    ensures PathOfUrl(Url(path)) == Some(path)
  {
    var u := Url(path);
    assert u[..|UrlBase|] == UrlBase;
    assert u[|UrlBase|..] == path;
  }

  /** Distinct paths are sent to distinct URLs. */
  lemma UrlInjective(p: string, q: string)
    requires Url(p) == Url(q)
    ensures p == q
  {
    UrlRoundTrip(p);
    UrlRoundTrip(q);
  }

  /** One HTTP request, as handed to the network (redirects are never
      followed). */
  datatype HttpCall = HttpCall(verb: Method, url: string, params: QueryParams)

  /** What comes back: the status, the raw body text, and the body decoded
      as JSON (None when it is not JSON). */
  datatype Response = Response(status: int, text: string, json: Option<Json>)

  /** What a call can raise. */
  datatype Error =
    | UnsupportedMethod(verb: string)             // requests.HTTPError, before any I/O
    | HttpError(status: int, url: string, body: string)  // requests.HTTPError on a non-200 status
    | StatusException(status: int, url: string, body: string)  // plain Exception, old-style resources
    | MalformedPayload                              // the body is not a JSON object with `data`
    | BadArguments                                  // TypeError while binding the call's arguments
    | FormatFailed(cause: PyFormat.FormatError)     // str.format raised, or met a field not modelled
    | NoTemplate                                    // AttributeError: the template is None

  /** The requests a call sent, in order, and what it returned or raised. */
  datatype Exchange = Exchange(sent: seq<HttpCall>, result: Result<Json, Error>)

  /** `response.json()['data']`: where the body repeats `data`, the last
      value is the one decoded. */
  function Payload(resp: Response): (r: Option<Json>)
    ensures r.Some? <==> resp.json.Some? && resp.json.value.JObj? && "data" in Keys(resp.json.value.entries)
    ensures r.Some? ==>
      exists i :: 0 <= i < |resp.json.value.entries| &&
        resp.json.value.entries[i] == ("data", r.value) && LastKey(resp.json.value.entries, "data", i)
  {
    match resp.json
    case Some(JObj(entries)) => Lookup(entries, "data")
    case _ => None
  }

  /** A 200 yields the payload, any other status raises with the status,
      the URL and the body text. */
  function Classify(url: string, resp: Response): (r: Result<Json, Error>)
    ensures resp.status != StatusOk ==> r == Failure(HttpError(resp.status, url, resp.text))
    ensures r.Success? <==> resp.status == StatusOk && Payload(resp).Some?
    ensures r.Success? ==> Payload(resp) == Some(r.value)
  {
    if resp.status != StatusOk then Failure(HttpError(resp.status, url, resp.text))
    else match Payload(resp)
      case Some(data) => Success(data)
      case None => Failure(MalformedPayload)
  }

  /** The client object: it holds only the API key. */
  datatype ApiClient = ApiClient(apiKey: string)

  /** `_request`: the verb is checked before anything is sent; a supported
      verb sends exactly one request to `Url(path)` with the caller's
      keyword arguments plus the key. */
  function Request(c: ApiClient, verb: string, path: string, kwargs: map<string, Json>,
                   transport: HttpCall -> Response): (x: Exchange)
    ensures x.sent == [] <==> ParseMethod(verb).None?
    ensures ParseMethod(verb).None? ==> x.result == Failure(UnsupportedMethod(Lower(verb)))
    ensures |x.sent| <= 1
    ensures |x.sent| == 1 ==>
      && MethodName(x.sent[0].verb) == Lower(verb)
      && x.sent[0].url == Url(path)
      && x.sent[0].params == BuildQueryParams(c.apiKey, Dict(kwargs))
      && x.result == Classify(Url(path), transport(x.sent[0]))
  {
    var url := Url(path);
    var params := BuildQueryParams(c.apiKey, Dict(kwargs));
    match ParseMethod(verb)
    case None => Exchange([], Failure(UnsupportedMethod(Lower(verb))))
    case Some(m) =>
      var call := HttpCall(m, url, params);
      Exchange([call], Classify(url, transport(call)))
  }

  /** Arguments that Python cannot bind when `get`/`post`/`delete` forward
      to `_request(method=..., path=path, *args, **kwargs)`: any positional
      argument collides with `method`, and so do keywords named like the
      parameters already bound. */
  predicate ForwardingClash(args: seq<Json>, kwargs: map<string, Json>)
  {
    |args| > 0 || "method" in kwargs || "path" in kwargs || "self" in kwargs
  }

  /** `get`, `post` and `delete`: each forwards to `_request` with its own
      verb, the same path and the same keyword arguments. */
  function Call(c: ApiClient, m: Method, path: string, args: seq<Json>, kwargs: map<string, Json>,
                transport: HttpCall -> Response): (x: Exchange)
    ensures ForwardingClash(args, kwargs) ==> x == Exchange([], Failure(BadArguments))
    ensures !ForwardingClash(args, kwargs) ==>
      && x.sent == [HttpCall(m, Url(path), BuildQueryParams(c.apiKey, Dict(kwargs)))]
      && x.result == Classify(Url(path), transport(x.sent[0]))
  {
    if ForwardingClash(args, kwargs) then Exchange([], Failure(BadArguments))
    else
      ParseMethodName(m);
      Request(c, MethodName(m), path, kwargs, transport)
  }
}

=== FILE: app.dfy ===
/** traceview/app.py: app listing and deletion share one descriptor with a
    template table. */
module App {
  import opened Wrappers
  import opened Json
  import opened PyFormat
  import opened Resource

  /** The class-level template table of `App`. */
  const PATH: map<string, string> := map[
    "GET" := "apps",
    "DELETE" := "app/{app_name}"
  ]

  datatype AppResource = AppResource(path: Option<string>)

  /** `App.get(*args, **kwargs)`: always the listing path; every argument
      is passed on. */
  function Get(d: AppResource, args: seq<Json>, kwargs: map<string, Json>): (r: (AppResource, Dispatch))
    ensures r.0 == AppResource(Some("apps"))
    ensures r.1 == Dispatch(GetOp, "apps", args, kwargs)
  {
    (AppResource(Some(PATH["GET"])), Dispatch(GetOp, PATH["GET"], args, kwargs))
  }

  /** `App.delete(app_name, *args, **kwargs)`. */
  function Delete(d: AppResource, appName: string, args: seq<Json>, kwargs: map<string, Json>)
    : (r: (AppResource, Dispatch))
    ensures r.0 == AppResource(Some(r.1.path))
    ensures r.1.op == DeleteOp && r.1.args == args && r.1.kwargs == kwargs
    ensures Format(PATH["DELETE"], map["app_name" := appName]) == Success(r.1.path)
    ensures r.1.path == "app/" + appName
  {
    var t := "app/" + "{" + "app_name" + "}";
    assert PATH["DELETE"] == t + "";
    FormatOneField("app/", "app_name", "", map["app_name" := appName]);
    assert "app/" + appName + "" == "app/" + appName;
    var p := "app/" + appName;
    (AppResource(Some(p)), Dispatch(DeleteOp, p, args, kwargs))
  }

  /** The table is never written: a listing after any deletion still
      resolves to "apps". */
  lemma GetAfterDelete(d: AppResource, appName: string, args: seq<Json>, kwargs: map<string, Json>,
                       args2: seq<Json>, kwargs2: map<string, Json>)
    ensures Get(Delete(d, appName, args, kwargs).0, args2, kwargs2).1.path == "apps"
  {
  }
}

=== FILE: discovery.dfy ===
/** traceview/discovery.py: the layer listing of one app. `Layer.__call__` formats its template and stores
    the result back into its own `PATH`, so the template is lost after the
    first call; `FixedLayerCall` is the per-call resolution the other
    descriptors use. */
module Discovery {
  import opened Wrappers
  import opened Json
  import opened PyFormat
  import opened Resource

  /** The class-level template of `Layer`. */
  const LayerPATH: string := "layers/{app}"

  /** `"layers/{app}".format(app=app)`. */
  lemma FormatLayerPATH(app: string)
    ensures Format(LayerPATH, map["app" := app]) == Success("layers/" + app)
  {
    var t := "layers/" + "{" + "app" + "}";
    assert LayerPATH == t + "";
    FormatOneField("layers/", "app", "", map["app" := app]);
    assert "layers/" + app + "" == "layers/" + app;
  }

  /** A `Layer` instance: its `PATH`, which starts as the class template
      and is overwritten by each call. */
  datatype LayerResource = LayerResource(PATH: string)

  function NewLayer(): LayerResource
  {
    LayerResource(LayerPATH)
  }

  /** `Layer.__call__(app, *args, **kwargs)` as written: `PATH` is replaced
      by `PATH.format(app=app)`; when formatting raises, nothing is stored
      and nothing is dispatched. */
  function LayerCall(d: LayerResource, app: string, args: seq<Json>, kwargs: map<string, Json>)
    : (r: (LayerResource, Result<Dispatch, FormatError>))
    ensures r.1.Failure? ==> r.0 == d && Format(d.PATH, map["app" := app]) == Failure(r.1.error)
    ensures r.1.Success? ==>
      && Format(d.PATH, map["app" := app]) == Success(r.0.PATH)
      && r.1.value == Dispatch(CallOp, r.0.PATH, args, kwargs)
    ensures d == NewLayer() ==> r.1 == Success(Dispatch(CallOp, "layers/" + app, args, kwargs))
  {
    FormatLayerPATH(app);
    match Format(d.PATH, map["app" := app])
    case Failure(e) => (d, Failure(e))
    case Success(p) => (LayerResource(p), Success(Dispatch(CallOp, p, args, kwargs)))
  }

  /** After a first call with a brace-free app `a`, every later call is sent
      to `a`'s layers, whatever app it names. */
  lemma LayerReusesFirstApp(a: string, b: string, args1: seq<Json>, kw1: map<string, Json>,
                            args2: seq<Json>, kw2: map<string, Json>)
    requires NoBraces(a)
    ensures LayerCall(LayerCall(NewLayer(), a, args1, kw1).0, b, args2, kw2).1
         == Success(Dispatch(CallOp, "layers/" + a, args2, kw2))
  {
    FormatLayerPATH(a);
    var d1 := LayerCall(NewLayer(), a, args1, kw1).0;
    assert d1.PATH == "layers/" + a;
    assert NoBraces("layers/" + a) by {
      assert NoBraces("layers/");
      var s := "layers/" + a;
      forall i | 0 <= i < |s| ensures !IsBrace(s[i]) {
        if i >= 7 { assert s[i] == a[i - 7]; }
      }
    }
    FormatNoBraces("layers/" + a, map["app" := b]);
  }

  /** So for two different brace-free apps the second call goes to the
      wrong app. */
  lemma LayerSecondCallWrong(a: string, b: string, args1: seq<Json>, kw1: map<string, Json>,
                              args2: seq<Json>, kw2: map<string, Json>)
    requires NoBraces(a) && a != b
    ensures LayerCall(LayerCall(NewLayer(), a, args1, kw1).0, b, args2, kw2).1
         != Success(Dispatch(CallOp, "layers/" + b, args2, kw2))
  {
    LayerReusesFirstApp(a, b, args1, kw1, args2, kw2);
    SuffixAfter("layers/", a);
    SuffixAfter("layers/", b);
  }

  lemma SuffixAfter(p: string, s: string)
    ensures (p + s)[|p|..] == s
  {
  }

  /** A first app whose name is itself a replacement field `{n}`, for a
      keyword `n` other than `app`, makes every later call raise
      KeyError(n), whatever app it names. */
  lemma LayerFieldAppBreaksNextCall(n: string, b: string)
    requires KeywordName(n) && n != "app"
    ensures LayerCall(LayerCall(NewLayer(), "{" + n + "}", [], map[]).0, b, [], map[]).1 == Failure(KeyError(n))
  {
    FormatLayerPATH("{" + n + "}");
    var s := "layers/" + "{" + n + "}";
    assert "layers/" + ("{" + n + "}") == s;
    FormatLiteralPrefix("layers/", "{" + n + "}" + "", map["app" := b]);
    FormatField(n, "", map["app" := b]);
    assert "layers/" + ("{" + n + "}" + "") == s;
  }

  /** A first app `{n!c}`, a plain keyword with a conversion, makes every
      later call raise KeyError(n) unless `n` is `app`: the keyword is
      looked up before the conversion is applied. */
  lemma LayerConversionAppBreaksNextCall(n: string, c: char, b: string)
    requires KeywordName(n) && !IsBrace(c)
    ensures LayerCall(LayerCall(NewLayer(), "{" + n + "!" + [c] + "}", [], map[]).0, b, [], map[]).1 ==
      if n == "app" then Failure(Unsupported) else Failure(KeyError(n))
  {
    var a := "{" + n + "!" + [c] + "}";
    FormatLayerPATH(a);
    var s := "layers/" + a;
    FormatLiteralPrefix("layers/", a + "", map["app" := b]);
    FormatConversion(n, c, "", map["app" := b]);
    assert "layers/" + (a + "") == s;
  }

  /** A first app `{n}` with `n` empty or all digits makes every later call
      raise IndexError, since the call passes no positional argument, or
      ValueError when the digits spell an index beyond `MaxIndex`. */
  lemma LayerPositionalAppBreaksNextCall(n: string, b: string)
    requires NoBraces(n) && Positional(n)
    ensures LayerCall(LayerCall(NewLayer(), "{" + n + "}", [], map[]).0, b, [], map[]).1 ==
      Failure(if DigitsValue(n) > MaxIndex then ValueError else IndexError)
  {
    FormatLayerPATH("{" + n + "}");
    var s := "layers/" + "{" + n + "}";
    assert "layers/" + ("{" + n + "}") == s;
    FormatLiteralPrefix("layers/", "{" + n + "}" + "", map["app" := b]);
    FormatPositional(n, "", map["app" := b]);
    assert "layers/" + ("{" + n + "}" + "") == s;
  }

  /** The layer descriptor written the way the other descriptors are: the
      template stays a class constant and each call writes only `path`. */
  datatype FixedLayerResource = FixedLayerResource(path: Option<string>)

  function FixedLayerCall(d: FixedLayerResource, app: string, args: seq<Json>, kwargs: map<string, Json>)
    : (r: (FixedLayerResource, Dispatch))
    ensures r.0 == FixedLayerResource(Some(r.1.path))
    ensures r.1 == Dispatch(CallOp, "layers/" + app, args, kwargs)
  {
    FormatLayerPATH(app);
    var p := Format(LayerPATH, map["app" := app]).value;
    (FixedLayerResource(Some(p)), Dispatch(CallOp, p, args, kwargs))
  }

  /** With the fix, the second call goes to the second app. */
  lemma FixedLayerCallsIndependent(d: FixedLayerResource, a: string, b: string,
                                   args1: seq<Json>, kw1: map<string, Json>,
                                   args2: seq<Json>, kw2: map<string, Json>)
    ensures FixedLayerCall(FixedLayerCall(d, a, args1, kw1).0, b, args2, kw2).1.path == "layers/" + b
  {
  }
}

=== FILE: error.dfy ===
/** traceview/error.py: the error-rate descriptor in its `get` form. */
module Error {
  import opened Wrappers
  import opened Json
  import opened PyFormat
  import opened Resource

  const PATH: string := "errors/{app}/rate"

  datatype RateResource = RateResource(path: Option<string>)

  /** `Rate.get(app, *args, **kwargs)`: `app` fills the template, the rest
      goes to the inherited `get`, whose result is the call's result. */
  function Get(d: RateResource, app: string, args: seq<Json>, kwargs: map<string, Json>)
    : (r: (RateResource, Dispatch))
    ensures r.0 == RateResource(Some(r.1.path))
    ensures r.1.op == GetOp && r.1.args == args && r.1.kwargs == kwargs
    ensures Format(PATH, map["app" := app]) == Success(r.1.path)
    ensures r.1.path == "errors/" + app + "/rate"
  {
    assert PATH == "errors/" + "{" + "app" + "}" + "/rate";
    FormatOneField("errors/", "app", "/rate", map["app" := app]);
    var p := "errors/" + app + "/rate";
    (RateResource(Some(p)), Dispatch(GetOp, p, args, kwargs))
  }

  lemma CallsIndependent(d: RateResource, a: string, b: string, args: seq<Json>, kwargs: map<string, Json>)
    ensures Get(Get(d, a, args, kwargs).0, b, args, kwargs).1 == Get(d, b, args, kwargs).1
  {
  }
}

=== FILE: errors.dfy ===
/** traceview/errors.py: the `errors` namespace holds one descriptor,
    `rate`, whose call resolves the app's error-rate path into its own
    `path` attribute. */
module Errors {
  import opened Wrappers
  import opened Json
  import opened PyFormat
  import opened Namespace
  import opened Resource

  const RatePATH: string := "errors/{app}/rate"

  datatype RateResource = RateResource(path: Option<string>)

  /** `Rate.__call__(app, *args, **kwargs)`. */
  function RateCall(d: RateResource, app: string, args: seq<Json>, kwargs: map<string, Json>)
    : (r: (RateResource, Dispatch))
    ensures r.0 == RateResource(Some(r.1.path))
    ensures r.1.op == CallOp && r.1.args == args && r.1.kwargs == kwargs
    ensures Format(RatePATH, map["app" := app]) == Success(r.1.path)
    ensures r.1.path == "errors/" + app + "/rate"
  {
    assert RatePATH == "errors/" + "{" + "app" + "}" + "/rate";
    FormatOneField("errors/", "app", "/rate", map["app" := app]);
    var p := "errors/" + app + "/rate";
    (RateResource(Some(p)), Dispatch(CallOp, p, args, kwargs))
  }

  /** The template is never written, so each call depends only on its app. */
  lemma CallsIndependent(d: RateResource, a: string, b: string, args: seq<Json>, kwargs: map<string, Json>)
    ensures RateCall(RateCall(d, a, args, kwargs).0, b, args, kwargs).1 == RateCall(d, b, args, kwargs).1
  {
  }

  /** `Error(...)`: a namespace with the single attribute `rate`. */
  function ErrorNode(): (n: Node<RateResource>)
  {
    Group([("rate", Leaf(RateResource(None)))])
  }

  lemma Shape()
    ensures Keys(ErrorNode().children) == ["rate"]
    ensures ErrorNode().own == None
    ensures Child(ErrorNode(), "rate") == Some(Leaf(RateResource(None)))
  {
  }
}

=== FILE: formatters.dfy ===
/** traceview/formatters.py: functions that reshape an API result. `Identity`
    hands it back; `Tuplify` turns timeseries data (an object with `fields`
    and `items`) into one record per item, any other object into a single
    record, and passes everything else through. A record stands for the
    namedtuple instance: its type name, its field names and its values. */
module Formatters {
  import opened Wrappers
  import opened Json
  import PyFormat

  /** What the formatter can raise; `KeyError(k)` is a missing key `k`. */
  datatype PyError = TypeError | ValueError | KeyError(key: string)

  /** A namedtuple instance. */
  datatype Record = Record(typeName: string, fields: seq<string>, values: seq<Json>)

  /** A formatted result: a list of records, one record, or the input. */
  datatype Formatted = Records(rows: seq<Record>) | Single(record: Record) | Unchanged(json: Json)

  /** The default `class_name`. */
  const DefaultClassName: string := "Result"

  /** `identity(results)`. */
  function Identity(results: Json): (r: Json)
    ensures r == results
  {
    results
  }

  /** The value of attribute `name`: the value in the position of the first
      field of that name. */
  function Attr(rec: Record, name: string): (r: Option<Json>)
    requires |rec.fields| == |rec.values|
    ensures r.Some? <==> name in rec.fields
    ensures r.Some? ==> exists i :: 0 <= i < |rec.fields| && rec.fields[i] == name && rec.values[i] == r.value
    decreases |rec.fields|
  {
    if rec.fields == [] then None
    else if rec.fields[0] == name then Some(rec.values[0])
    else Attr(Record(rec.typeName, rec.fields[1..], rec.values[1..]), name)
  }

  /** With distinct field names, the attribute is the value at the field's
      position. */
  lemma {:induction false} AttrAt(rec: Record, i: nat)
    requires |rec.fields| == |rec.values|
    requires i < |rec.fields|
    requires Distinct(rec.fields)
    ensures Attr(rec, rec.fields[i]) == Some(rec.values[i])
    decreases i
  {
    if i > 0 {
      var tail := Record(rec.typeName, rec.fields[1..], rec.values[1..]);
      assert rec.fields[0] != rec.fields[i];
      assert Distinct(tail.fields) by {
        forall p, q | 0 <= p < q < |tail.fields| ensures tail.fields[p] != tail.fields[q] {
          assert tail.fields[p] == rec.fields[p + 1] && tail.fields[q] == rec.fields[q + 1];
        }
      }
      AttrAt(tail, i - 1);
    }
  }

  predicate Distinct(names: seq<string>)
  {
    forall p, q :: 0 <= p < q < |names| ==> names[p] != names[q]
  }

  /** `namedtuple._asdict()`: the record as an object. */
  function AsDict(rec: Record): (r: seq<(string, Json)>)
    requires |rec.fields| == |rec.values|
    ensures |r| == |rec.fields|
    ensures Keys(r) == rec.fields
    ensures forall i :: 0 <= i < |r| ==> r[i].1 == rec.values[i]
  {
    seq(|rec.fields|, i requires 0 <= i < |rec.fields| => (rec.fields[i], rec.values[i]))
  }

  /** `'{name}Tuple'.format(name=class_name)`: the type name of the records. */
  function TupleName(className: string): (n: string)
    ensures PyFormat.Format("{name}Tuple", map["name" := className]) == Success(n)
    ensures n == className + "Tuple"
  {
    assert "{name}Tuple" == "" + "{" + "name" + "}" + "Tuple";
    assert PyFormat.NoBraces("name") && PyFormat.NoBraces("Tuple");
    PyFormat.FormatOneField("", "name", "Tuple", map["name" := className]);
    assert "" + className + "Tuple" == className + "Tuple";
    className + "Tuple"
  }

  /** Without a `class_name`, records are named "ResultTuple". */
  lemma DefaultTupleName()
    ensures TupleName(DefaultClassName) == "ResultTuple"
  {
  }

  /** The characters `s.replace(',', ' ').split()` splits at: the comma,
      and the whitespace of Python 2.7's `unicode.split()` (JSON strings
      decode to `unicode`), which is the Unicode 5.2 whitespace together
      with the ASCII separators 0x1c to 0x1f. */
  predicate IsSep(c: char)
  {
    var n := c as int;
    || n == 0x2c
    || 0x09 <= n <= 0x0d || 0x1c <= n <= 0x20
    || n == 0x85 || n == 0xa0 || n == 0x1680 || n == 0x180e
    || 0x2000 <= n <= 0x200a || n == 0x2028 || n == 0x2029
    || n == 0x202f || n == 0x205f || n == 0x3000
  }

  predicate NoSeps(s: string)
  {
    forall i :: 0 <= i < |s| ==> !IsSep(s[i])
  }

  /** The index of the first separator at or after `i`, or `|s|`. */
  function WordEnd(s: string, i: nat): (j: nat)
    requires i <= |s|
    ensures i <= j <= |s|
    ensures NoSeps(s[i..j])
    ensures j < |s| ==> IsSep(s[j])
    decreases |s| - i
  {
    if i == |s| || IsSep(s[i]) then i else WordEnd(s, i + 1)
  }

  /** `s.replace(',', ' ').split()`: the field names of a string field list. */
  function SplitFields(s: string): (r: seq<string>)
    ensures forall k :: 0 <= k < |r| ==> |r[k]| > 0 && NoSeps(r[k])
    decreases |s|
  {
    if s == [] then []
    else if IsSep(s[0]) then SplitFields(s[1..])
    else
      var j := WordEnd(s, 0);
      [s[..j]] + SplitFields(s[j..])
  }

  /** Field names written with commas between them split back into the same
      names. */
  lemma {:induction false} SplitJoin(ws: seq<string>)
    requires forall k :: 0 <= k < |ws| ==> |ws[k]| > 0 && NoSeps(ws[k])
    ensures SplitFields(JoinFields(ws)) == ws
  {
    if ws != [] {
      SplitJoin(ws[1..]);
      var w := ws[0];
      WordEndAtSep(w, JoinTail(ws[1..]));
      var s := w + JoinTail(ws[1..]);
      assert JoinFields(ws) == s;
      assert s[..|w|] == w;
      assert s[|w|..] == JoinTail(ws[1..]);
      if ws[1..] != [] {
        assert JoinTail(ws[1..]) == [','] + JoinFields(ws[1..]);
        assert JoinTail(ws[1..])[1..] == JoinFields(ws[1..]);
      }
    }
  }

  /** `",".join(ws)`. */
  function JoinFields(ws: seq<string>): string
    decreases |ws|, 0
  {
    if ws == [] then [] else ws[0] + JoinTail(ws[1..])
  }

  function JoinTail(ws: seq<string>): string
    decreases |ws|, 1
  {
    if ws == [] then [] else [','] + JoinFields(ws)
  }

  lemma WordEndAtSep(w: string, rest: string)
    requires |w| > 0 && NoSeps(w)
    requires rest == [] || IsSep(rest[0])
    ensures WordEnd(w + rest, 0) == |w|
  {
    var s := w + rest;
    WordEndFrom(s, 0, |w|);
  }

  lemma WordEndFrom(s: string, i: nat, j: nat)
    requires i <= j <= |s|
    requires forall k :: i <= k < j ==> !IsSep(s[k])
    requires j == |s| || IsSep(s[j])
    ensures WordEnd(s, i) == j
    decreases j - i
  {
    if i < j {
      WordEndFrom(s, i + 1, j);
    }
  }

  /** `str(x)` of a list element, where it can name a field. A string is
      itself; Python 2.7 spells the booleans and null "True", "False" and
      "None". "True" and "False" are not keywords there and are valid
      names; "None" passes `namedtuple`'s own checks, but the class it
      generates then fails to compile, which the model does not check.
      The `str()` of a number starts with a digit or a sign and that of a
      list or object holds brackets, so neither ever names a field. */
  function ElementName(x: Json): (r: Option<string>)
    ensures r.Some? <==> x.JStr? || x.JBool? || x.JNull?
    ensures x.JStr? ==> r == Some(x.s)
  {
    match x
    case JStr(s) => Some(s)
    case JBool(b) => Some(if b then "True" else "False")
    case JNull => Some("None")
    case _ => None
  }

  /** `namedtuple`'s reading of `field_names`: a string is split, a list
      gives the `str()` of its elements and an object its keys. A list
      element whose `str()` is never a valid name raises ValueError; a
      value that cannot be iterated raises TypeError. */
  function FieldNames(fields: Json): (r: Result<seq<string>, PyError>)
    ensures fields.JStr? ==> r == Success(SplitFields(fields.s))
    ensures fields.JObj? ==> r == Success(Keys(fields.entries))
    ensures fields.JArr? ==> (r.Success? <==> forall k :: 0 <= k < |fields.items| ==> ElementName(fields.items[k]).Some?)
    ensures fields.JArr? && r.Success? ==>
      |r.value| == |fields.items| && forall k :: 0 <= k < |r.value| ==> ElementName(fields.items[k]) == Some(r.value[k])
    ensures fields.JArr? && r.Failure? ==> r.error == ValueError
    ensures (fields.JNull? || fields.JBool? || fields.JNum?) ==> r == Failure(TypeError)
  {
    match fields
    case JStr(s) => Success(SplitFields(s))
    case JObj(entries) => Success(Keys(entries))
    case JArr(items) =>
      if forall k :: 0 <= k < |items| ==> ElementName(items[k]).Some? then
        Success(seq(|items|, k requires 0 <= k < |items| && ElementName(items[k]).Some? => ElementName(items[k]).value))
      else Failure(ValueError)
    case _ => Failure(TypeError)
  }

  /** What `for x in value` visits: a list's elements, a string's characters,
      an object's keys; anything else cannot be iterated. */
  function Iterate(value: Json): (r: Option<seq<Json>>)
    ensures r.Some? <==> value.JArr? || value.JStr? || value.JObj?
    ensures value.JArr? ==> r == Some(value.items)
    ensures value.JStr? ==> |r.value| == |value.s| && forall k :: 0 <= k < |value.s| ==> r.value[k] == JStr([value.s[k]])
    ensures value.JObj? ==> |r.value| == |value.entries| && forall k :: 0 <= k < |value.entries| ==> r.value[k] == JStr(value.entries[k].0)
  {
    match value
    case JArr(items) => Some(items)
    case JStr(s) => Some(seq(|s|, k requires 0 <= k < |s| => JStr([s[k]])))
    case JObj(entries) => Some(seq(|entries|, k requires 0 <= k < |entries| => JStr(entries[k].0)))
    case _ => None
  }

  /** `nt(*item)` for each item in order: every item must unpack to exactly
      one value per field. */
  function Rows(typeName: string, names: seq<string>, items: seq<Json>): (r: Result<seq<Record>, PyError>)
    ensures r.Success? <==> forall j :: 0 <= j < |items| ==> Iterate(items[j]).Some? && |Iterate(items[j]).value| == |names|
    ensures r.Failure? ==> r.error == TypeError
    ensures r.Success? ==> |r.value| == |items|
    ensures r.Success? ==> forall j :: 0 <= j < |items| ==> r.value[j] == Record(typeName, names, Iterate(items[j]).value)
    decreases |items|
  {
    if items == [] then Success([])
    else match Iterate(items[0])
      case None => Failure(TypeError)
      case Some(vals) =>
        if |vals| != |names| then Failure(TypeError)
        else match Rows(typeName, names, items[1..])
          case Failure(e) => Failure(e)
          case Success(rest) =>
            assert forall j :: 1 <= j < |items| ==> items[j] == items[1..][j - 1];
            Success([Record(typeName, names, vals)] + rest)
  }

  /** `key` occurs in `s` starting at index `i`. */
  predicate OccursAt(s: string, key: string, i: int)
  {
    0 <= i && i + |key| <= |s| && s[i..i + |key|] == key
  }

  predicate Substring(key: string, s: string)
  {
    exists i :: 0 <= i <= |s| && OccursAt(s, key, i)
  }

  /** `'fields' in results`: membership of a key in an object, of an equal
      string in a list, of a substring in a string; the other values raise
      TypeError. */
  function Contains(results: Json, key: string): (r: Result<bool, PyError>)
    ensures results.JObj? ==> r == Success(key in Keys(results.entries))
    ensures results.JArr? ==> r == Success(JStr(key) in results.items)
    ensures results.JStr? ==> r == Success(Substring(key, results.s))
    ensures (results.JNull? || results.JBool? || results.JNum?) ==> r == Failure(TypeError)
  {
    match results
    case JObj(entries) => Success(key in Keys(entries))
    case JArr(items) => Success(JStr(key) in items)
    case JStr(s) => Success(Substring(key, s))
    case _ => Failure(TypeError)
  }

  /** The timeseries test of `tuplify`; `and` does not evaluate its second
      operand when the first is false. */
  function IsTimeseries(results: Json): (r: Result<bool, PyError>)
    ensures r.Failure? <==> results.JNull? || results.JBool? || results.JNum?
    ensures r.Failure? ==> r.error == TypeError
    ensures results.JObj? ==> r == Success("fields" in Keys(results.entries) && "items" in Keys(results.entries))
    ensures results.JArr? ==> r == Success(JStr("fields") in results.items && JStr("items") in results.items)
    ensures results.JStr? ==> r == Success(Substring("fields", results.s) && Substring("items", results.s))
  {
    match Contains(results, "fields")
    case Failure(e) => Failure(e)
    case Success(false) => Success(false)
    case Success(true) => Contains(results, "items")
  }

  /** `_tuplify_timeseries`, in the order Python evaluates it: subscripting
      anything but an object raises TypeError and a missing key KeyError;
      `results['fields']` is read and the names checked before
      `results['items']` is read; duplicate names raise ValueError; items
      that cannot be iterated or unpacked raise TypeError. */
  function TuplifyTimeseries(results: Json, className: string): (r: Result<Formatted, PyError>)
    ensures !results.JObj? ==> r == Failure(TypeError)
    ensures results.JObj? && "fields" !in Keys(results.entries) ==> r == Failure(KeyError("fields"))
    ensures results.JObj? && "fields" in Keys(results.entries) ==>
      var names := FieldNames(Lookup(results.entries, "fields").value);
      && (names.Failure? ==> r == Failure(names.error))
      && (names.Success? && !Distinct(names.value) ==> r == Failure(ValueError))
      && (names.Success? && Distinct(names.value) && "items" !in Keys(results.entries) ==> r == Failure(KeyError("items")))
    ensures results.JObj? && "fields" in Keys(results.entries) && "items" in Keys(results.entries) ==>
      var names := FieldNames(Lookup(results.entries, "fields").value);
      var each := Iterate(Lookup(results.entries, "items").value);
      names.Success? && Distinct(names.value) ==>
        && (each.None? ==> r == Failure(TypeError))
        && (each.Some? ==> (r.Success? <==> Rows(className + "Tuple", names.value, each.value).Success?))
        && (each.Some? && r.Failure? ==> r.error == TypeError)
    ensures r.Success? ==>
      && results.JObj? && r.value.Records?
      && var names := FieldNames(Lookup(results.entries, "fields").value).value;
         var each := Iterate(Lookup(results.entries, "items").value).value;
         && |r.value.rows| == |each|
         && forall j :: 0 <= j < |each| ==> r.value.rows[j] == Record(className + "Tuple", names, Iterate(each[j]).value)
  {
    if !results.JObj? then Failure(TypeError)
    else match Lookup(results.entries, "fields")
      case None => Failure(KeyError("fields"))
      case Some(fields) =>
        match FieldNames(fields)
        case Failure(e) => Failure(e)
        case Success(names) =>
          if !Distinct(names) then Failure(ValueError)
          else match Lookup(results.entries, "items")
            case None => Failure(KeyError("items"))
            case Some(items) =>
              match Iterate(items)
              case None => Failure(TypeError)
              case Some(each) =>
                match Rows(TupleName(className), names, each)
                case Failure(e) => Failure(e)
                case Success(rows) => Success(Records(rows))
  }

  /** `_tuplify_dict`: one record whose fields are the object's keys and
      whose values are its values. */
  function TuplifyDict(entries: seq<(string, Json)>, className: string): (r: Result<Formatted, PyError>)
    ensures r.Success? <==> DistinctKeys(entries)
    ensures r.Failure? ==> r.error == ValueError
    ensures r.Success? ==> r.value.Single? && r.value.record.typeName == className + "Tuple"
    ensures r.Success? ==> |r.value.record.fields| == |r.value.record.values| && AsDict(r.value.record) == entries
    ensures r.Success? ==> forall k :: k in Keys(entries) ==> Attr(r.value.record, k) == Lookup(entries, k)
  {
    var names := Keys(entries);
    if !Distinct(names) then
      DistinctNames(entries);
      Failure(ValueError)
    else
      DistinctNames(entries);
      var rec := Record(TupleName(className), names, seq(|entries|, i requires 0 <= i < |entries| => entries[i].1));
      assert AsDict(rec) == entries by {
        forall i | 0 <= i < |entries| ensures AsDict(rec)[i] == entries[i] {
          assert AsDict(rec)[i].0 == Keys(entries)[i] == entries[i].0;
        }
      }
      AttrsAreLookups(entries, rec);
      Success(Single(rec))
  }

  /** A record built from an object with distinct keys answers each key's
      attribute with that key's value. */
  lemma AttrsAreLookups(entries: seq<(string, Json)>, rec: Record)
    requires DistinctKeys(entries)
    requires rec.fields == Keys(entries) && |rec.values| == |entries|
    requires forall i :: 0 <= i < |entries| ==> rec.values[i] == entries[i].1
    ensures forall k :: k in Keys(entries) ==> Attr(rec, k) == Lookup(entries, k)
  {
    DistinctNames(entries);
    forall k | k in Keys(entries) ensures Attr(rec, k) == Lookup(entries, k) {
      var i :| 0 <= i < |entries| && Keys(entries)[i] == k;
      AttrAt(rec, i);
      LookupDistinct(entries, i);
    }
  }

  lemma DistinctNames(entries: seq<(string, Json)>)
    ensures Distinct(Keys(entries)) <==> DistinctKeys(entries)
  {
  }

  /** `tuplify(results, class_name)`. The timeseries test guards both
      subscripts, so it never raises KeyError. */
  function Tuplify(results: Json, className: string): (r: Result<Formatted, PyError>)
    ensures r.Failure? ==> r.error == TypeError || r.error == ValueError
    ensures IsTimeseries(results).Failure? ==> r == Failure(IsTimeseries(results).error)
    ensures IsTimeseries(results) == Success(true) ==> r == TuplifyTimeseries(results, className)
    ensures IsTimeseries(results) == Success(false) && results.JObj? ==> r == TuplifyDict(results.entries, className)
    ensures IsTimeseries(results) == Success(false) && !results.JObj? ==> r == Success(Unchanged(results))
  {
    match IsTimeseries(results)
    case Failure(e) => Failure(e)
    case Success(true) => TuplifyTimeseries(results, className)
    case Success(false) =>
      if results.JObj? then TuplifyDict(results.entries, className) else Success(Unchanged(results))
  }

  /** Timeseries data as the API returns it: a list of field names and a
      list of rows. */
  function Timeseries(names: seq<string>, rows: seq<seq<Json>>): Json
  {
    JObj([("fields", JArr(seq(|names|, k requires 0 <= k < |names| => JStr(names[k])))),
          ("items", JArr(seq(|rows|, j requires 0 <= j < |rows| => JArr(rows[j]))))])
  }

  /** Timeseries data with distinct field names and rows as wide as the
      field list gives one record per row, in order, each named
      class_name + "Tuple", whose attribute `names[i]` holds `rows[j][i]`. */
  lemma TuplifyTimeseriesRows(names: seq<string>, rows: seq<seq<Json>>, className: string)
    requires Distinct(names)
    requires forall j :: 0 <= j < |rows| ==> |rows[j]| == |names|
    ensures var r := Tuplify(Timeseries(names, rows), className);
            && r.Success? && r.value.Records?
            && |r.value.rows| == |rows|
            && forall j :: 0 <= j < |rows| ==>
                 && r.value.rows[j] == Record(className + "Tuple", names, rows[j])
                 && forall i :: 0 <= i < |names| ==> Attr(r.value.rows[j], names[i]) == Some(rows[j][i])
  {
    var results := Timeseries(names, rows);
    var entries := results.entries;
    assert Keys(entries) == ["fields", "items"];
    assert Lookup(entries, "fields") == Some(entries[0].1);
    assert Lookup(entries, "items") == Some(entries[1].1);
    var fields := entries[0].1;
    var names' := FieldNames(fields).value;
    assert names' == names;
    var each := entries[1].1.items;
    var r := Tuplify(results, className);
    forall j | 0 <= j < |rows|
      ensures r.value.rows[j] == Record(className + "Tuple", names, rows[j])
      ensures forall i :: 0 <= i < |names| ==> Attr(r.value.rows[j], names[i]) == Some(rows[j][i])
    {
      assert each[j] == JArr(rows[j]);
      forall i | 0 <= i < |names| ensures Attr(r.value.rows[j], names[i]) == Some(rows[j][i]) {
        AttrAt(r.value.rows[j], i);
      }
    }
  }

  /** Timeseries data with a repeated field name raises ValueError; with
      distinct names, a row not as wide as the field list raises TypeError.
      Together with `TuplifyTimeseriesRows`: timeseries data converts
      exactly when its names are distinct and its rows are as wide as the
      field list. */
  lemma TuplifyTimeseriesErrors(names: seq<string>, rows: seq<seq<Json>>, className: string)
    ensures !Distinct(names) ==> Tuplify(Timeseries(names, rows), className) == Failure(ValueError)
    ensures Distinct(names) && (exists j :: 0 <= j < |rows| && |rows[j]| != |names|) ==>
      Tuplify(Timeseries(names, rows), className) == Failure(TypeError)
  {
    var results := Timeseries(names, rows);
    var entries := results.entries;
    assert Keys(entries) == ["fields", "items"];
    assert Lookup(entries, "fields") == Some(entries[0].1);
    assert Lookup(entries, "items") == Some(entries[1].1);
    assert FieldNames(entries[0].1).value == names;
    var each := entries[1].1.items;
    if Distinct(names) && exists j :: 0 <= j < |rows| && |rows[j]| != |names| {
      var j :| 0 <= j < |rows| && |rows[j]| != |names|;
      assert each[j] == JArr(rows[j]);
    }
  }

  /** An object that is not timeseries data gives one record; converting
      that record back to an object gives the original entries, and each
      attribute holds the entry of that key. */
  lemma TuplifyDictRoundTrip(entries: seq<(string, Json)>, className: string)
    requires DistinctKeys(entries)
    requires "fields" !in Keys(entries)
    ensures var r := Tuplify(JObj(entries), className);
            && r.Success? && r.value.Single?
            && r.value.record.typeName == className + "Tuple"
            && |r.value.record.fields| == |r.value.record.values|
            && AsDict(r.value.record) == entries
            && forall k :: k in Keys(entries) ==> Attr(r.value.record, k) == Lookup(entries, k)
  {
    DistinctNames(entries);
  }

  /** Values that are neither objects nor contain both markers come back
      unchanged; numbers, booleans and null raise TypeError. */
  lemma TuplifyPassThrough(results: Json, className: string)
    ensures results.JNull? || results.JBool? || results.JNum? ==> Tuplify(results, className) == Failure(TypeError)
    ensures results.JArr? && JStr("fields") !in results.items ==> Tuplify(results, className) == Success(Unchanged(results))
    ensures results.JArr? && JStr("fields") in results.items && JStr("items") in results.items ==>
      Tuplify(results, className) == Failure(TypeError)
  {
  }
}

=== FILE: host.dfy ===
/** traceview/host.py: host listing (all hosts, or the hosts of one app),
    host deletion, and a host's instrumentation versions. The `PATH` table
    is a class constant; each call writes only the descriptor's `path`. */
module Host {
  import opened Wrappers
  import opened Json
  import opened PyFormat
  import opened Resource

  /** The class-level template table of `Host`. */
  const PATH: map<string, string> := map[
    "GET" := "hosts",
    "GET_BY_APP" := "app/{app}/hosts",
    "DELETE" := "hosts/{host_id}"
  ]

  /** A descriptor's only state: the `path` written by its latest call. */
  datatype HostResource = HostResource(path: Option<string>)

  /** Python truthiness of the optional `app` argument: None and the empty
      string are false. */
  predicate Truthy(app: Option<string>)
  {
    app.Some? && app.value != ""
  }

  /** `PATH["GET_BY_APP"].format(app=app)`. */
  function HostsOfApp(app: string): (p: string)
    ensures Format(PATH["GET_BY_APP"], map["app" := app]) == Success(p)
    ensures p == "app/" + app + "/hosts"
  {
    assert PATH["GET_BY_APP"] == "app/" + "{" + "app" + "}" + "/hosts";
    FormatOneField("app/", "app", "/hosts", map["app" := app]);
    "app/" + app + "/hosts"
  }

  /** `PATH["DELETE"].format(host_id=host_id)`. */
  function HostPath(hostId: string): (p: string)
    ensures Format(PATH["DELETE"], map["host_id" := hostId]) == Success(p)
    ensures p == "hosts/" + hostId
  {
    var t := "hosts/" + "{" + "host_id" + "}";
    assert PATH["DELETE"] == t + "";
    FormatOneField("hosts/", "host_id", "", map["host_id" := hostId]);
    assert "hosts/" + hostId + "" == "hosts/" + hostId;
    "hosts/" + hostId
  }

  /** `Host.get(app=None, *args, **kwargs)`: the filtered template when
      `app` is truthy, the unfiltered one otherwise. */
  function Get(d: HostResource, app: Option<string>, args: seq<Json>, kwargs: map<string, Json>)
    : (r: (HostResource, Dispatch))
    ensures r.0 == HostResource(Some(r.1.path))
    ensures r.1.op == GetOp && r.1.args == args && r.1.kwargs == kwargs
    ensures Truthy(app) ==> r.1.path == "app/" + app.value + "/hosts"
    ensures !Truthy(app) ==> r.1.path == "hosts"
  {
    var p := if Truthy(app) then HostsOfApp(app.value) else PATH["GET"];
    (HostResource(Some(p)), Dispatch(GetOp, p, args, kwargs))
  }

  /** `Host.delete(host_id, *args, **kwargs)`. */
  function Delete(d: HostResource, hostId: string, args: seq<Json>, kwargs: map<string, Json>)
    : (r: (HostResource, Dispatch))
    ensures r.0 == HostResource(Some(r.1.path))
    ensures r.1.op == DeleteOp && r.1.args == args && r.1.kwargs == kwargs
    ensures r.1.path == "hosts/" + hostId
  {
    var p := HostPath(hostId);
    (HostResource(Some(p)), Dispatch(DeleteOp, p, args, kwargs))
  }

  /** Since the table is never written, a listing after a deletion and a
      deletion after a listing resolve as they would on a fresh descriptor. */
  lemma CallsIndependent(d: HostResource, app: Option<string>, hostId: string,
                         args: seq<Json>, kwargs: map<string, Json>)
    ensures Get(Delete(d, hostId, args, kwargs).0, app, args, kwargs).1 == Get(d, app, args, kwargs).1
    ensures Delete(Get(d, app, args, kwargs).0, hostId, args, kwargs).1 == Delete(d, hostId, args, kwargs).1
  {
  }

  /** The template of `Instrumentation`. */
  const InstrumentationPATH: string := "hosts/{host_id}/versions"

  datatype InstrumentationResource = InstrumentationResource(path: Option<string>)

  /** `Instrumentation.get(host_id, *args, **kwargs)`. */
  function InstrumentationGet(d: InstrumentationResource, hostId: string, args: seq<Json>,
                              kwargs: map<string, Json>)
    : (r: (InstrumentationResource, Dispatch))
    ensures r.0 == InstrumentationResource(Some(r.1.path))
    ensures r.1.op == GetOp && r.1.args == args && r.1.kwargs == kwargs
    ensures Format(InstrumentationPATH, map["host_id" := hostId]) == Success(r.1.path)
    ensures r.1.path == "hosts/" + hostId + "/versions"
  {
    assert InstrumentationPATH == "hosts/" + "{" + "host_id" + "}" + "/versions";
    FormatOneField("hosts/", "host_id", "/versions", map["host_id" := hostId]);
    var p := "hosts/" + hostId + "/versions";
    (InstrumentationResource(Some(p)), Dispatch(GetOp, p, args, kwargs))
  }
}

=== FILE: json.dfy ===
/** Decoded JSON values: the payloads the service returns and the values
    callers pass as keyword arguments. */
module Json {
  import opened Wrappers

  /** An object lists its members in the order the decoded dict iterates
      them. Under Python 2.7 that order comes from hashing; the model takes
      it as given and does not compute it. A decoded dict holds each key
      once (`DistinctKeys`); entries that repeat a key stand for the member
      list of a JSON text before decoding, and only `Lookup` gives them a
      meaning. */
  datatype Json =
    | JNull
    | JBool(b: bool)
    | JNum(n: int)
    | JStr(s: string)
    | JArr(items: seq<Json>)
    | JObj(entries: seq<(string, Json)>)

  /** The keys of an object, or the attribute names of a namespace node,
      in the order they are listed. */
  function Keys<V>(entries: seq<(string, V)>): (ks: seq<string>)
    ensures |ks| == |entries|
    ensures forall i :: 0 <= i < |entries| ==> ks[i] == entries[i].0
  {
    if entries == [] then [] else [entries[0].0] + Keys(entries[1..])
  }

  /** `obj[k]`: the value stored under `k`, or None when `k` is absent.
      The last-match rule matters only for entries that repeat a key,
      which a decoded dict never holds: there the last one is the value,
      as `json.loads` keeps the last of repeated members. With distinct
      keys it is the one entry of that key (`LookupDistinct`). */
  function Lookup(entries: seq<(string, Json)>, k: string): (r: Option<Json>)
    ensures r.Some? <==> k in Keys(entries)
    ensures r.Some? ==> exists i :: 0 <= i < |entries| && entries[i] == (k, r.value) && LastKey(entries, k, i)
  {
    if entries == [] then None
    else match Lookup(entries[1..], k)
      case Some(v) =>
        ghost var i :| 0 <= i < |entries[1..]| && entries[1..][i] == (k, v) && LastKey(entries[1..], k, i);
        assert entries[i + 1] == (k, v) && LastKey(entries, k, i + 1);
        Some(v)
      case None =>
        if entries[0].0 == k then
          assert LastKey(entries, k, 0) by {
            forall j | 0 < j < |entries| ensures entries[j].0 != k {
              assert entries[j].0 == Keys(entries[1..])[j - 1];
            }
          }
          Some(entries[0].1)
        else None
  }

  /** No entry after the `i`-th has key `k`. */
  predicate LastKey(entries: seq<(string, Json)>, k: string, i: int)
  {
    forall j :: 0 <= j < |entries| && i < j ==> entries[j].0 != k
  }

  /** A Python dict never holds the same key twice. */
  predicate DistinctKeys(entries: seq<(string, Json)>)
  {
    forall i, j :: 0 <= i < j < |entries| ==> entries[i].0 != entries[j].0
  }

  /** With distinct keys, looking up the i-th key finds the i-th value. */
  lemma {:induction false} LookupDistinct(entries: seq<(string, Json)>, i: nat)
    requires DistinctKeys(entries)
    requires i < |entries|
    ensures Lookup(entries, entries[i].0) == Some(entries[i].1)
  {
    if i > 0 {
      var tail := entries[1..];
      assert tail[i - 1] == entries[i];
      assert DistinctKeys(tail) by {
        forall a, b | 0 <= a < b < |tail| ensures tail[a].0 != tail[b].0 {
          assert tail[a] == entries[a + 1] && tail[b] == entries[b + 1];
        }
      }
      LookupDistinct(tail, i - 1);
    }
  }
}

=== FILE: latency.dfy ===
/** traceview/latency.py: the latency namespace. `Latency` holds a server
    and a client group; each holds descriptors built with that group's
    data type, and only the server group has `by_layer`. A call resolves
    the class template into the descriptor's own `path` and leaves the
    template alone, so calls do not affect one another. */
module Latency {
  import opened Wrappers
  import opened Json
  import opened PyFormat
  import opened Namespace
  import opened Resource

  datatype Kind = Series | Summary | ByLayer

  /** The class-level `PATH` template of each descriptor class. */
  function PATH(k: Kind): string
  {
    match k
    case Series => "latency/{app}/{data_type}/series"
    case Summary => "latency/{app}/{data_type}/summary"
    case ByLayer => "latency/{app}/{data_type}/by-layer"
  }

  /** A descriptor: its class, the data type fixed at construction, and
      the `path` attribute written by the latest call (None before). */
  datatype LatencyResource = LatencyResource(kind: Kind, dataType: string, path: Option<string>)

  function New(kind: Kind, dataType: string): LatencyResource
  {
    LatencyResource(kind, dataType, None)
  }

  function FormatArgs(app: string, dataType: string): Args
  {
    map["app" := app, "data_type" := dataType]
  }

  /** The fixed text after the data type in each template. */
  function Tail(k: Kind): string
  {
    match k
    case Series => "/series"
    case Summary => "/summary"
    case ByLayer => "/by-layer"
  }

  /** `PATH.format(app=app, data_type=data_type)`: every template of the
      module formats without error, to the app and data type in place. */
  function Resolve(k: Kind, app: string, dataType: string): (p: string)
    ensures Format(PATH(k), FormatArgs(app, dataType)) == Success(p)
    ensures p == "latency/" + app + "/" + dataType + Tail(k)
    ensures k == Series ==> p == "latency/" + app + "/" + dataType + "/series"
    ensures k == Summary ==> p == "latency/" + app + "/" + dataType + "/summary"
    ensures k == ByLayer ==> p == "latency/" + app + "/" + dataType + "/by-layer"
  {
    var tail := Tail(k);
    TemplateText(k, tail);
    FormatTemplate(tail, app, dataType);
    "latency/" + app + "/" + dataType + tail
  }

  lemma TemplateText(k: Kind, tail: string)
    requires tail == Tail(k)
    ensures NoBraces(tail)
    ensures PATH(k) == "latency/" + "{" + "app" + "}" + "/" + "{" + "data_type" + "}" + tail
  {
    match k
    case Series => SeriesText();
    case Summary => SummaryText();
    case ByLayer => ByLayerText();
  }

  lemma SeriesText()
    ensures NoBraces("/series")
    ensures PATH(Series) == "latency/" + "{" + "app" + "}" + "/" + "{" + "data_type" + "}" + "/series"
  {
  }

  lemma SummaryText()
    ensures NoBraces("/summary")
    ensures PATH(Summary) == "latency/" + "{" + "app" + "}" + "/" + "{" + "data_type" + "}" + "/summary"
  {
  }

  lemma ByLayerText()
    ensures NoBraces("/by-layer")
    ensures PATH(ByLayer) == "latency/" + "{" + "app" + "}" + "/" + "{" + "data_type" + "}" + "/by-layer"
  {
  }

  lemma FormatTemplate(tail: string, app: string, dataType: string)
    requires NoBraces(tail)
    ensures Format("latency/" + "{" + "app" + "}" + "/" + "{" + "data_type" + "}" + tail, FormatArgs(app, dataType))
         == Success("latency/" + app + "/" + dataType + tail)
  {
    FormatTwoFields("latency/", "app", "/", "data_type", tail, FormatArgs(app, dataType));
  }

  /** `__call__(app, *args, **kwargs)`: writes only `path`, then hands the
      remaining arguments unchanged to the inherited `__call__`. */
  function Call(d: LatencyResource, app: string, args: seq<Json>, kwargs: map<string, Json>)
    : (r: (LatencyResource, Dispatch))
    ensures r.0 == d.(path := Some(r.1.path))
    ensures r.1.op == CallOp && r.1.args == args && r.1.kwargs == kwargs
    ensures Format(PATH(d.kind), FormatArgs(app, d.dataType)) == Success(r.1.path)
  {
    var p := Resolve(d.kind, app, d.dataType);
    (d.(path := Some(p)), Dispatch(CallOp, p, args, kwargs))
  }

  /** A call made after any other call behaves as if it were the first:
      the template and the data type are never written. */
  lemma CallsIndependent(d: LatencyResource, a: string, b: string,
                         args1: seq<Json>, kw1: map<string, Json>, args2: seq<Json>, kw2: map<string, Json>)
    ensures Call(Call(d, a, args1, kw1).0, b, args2, kw2).1 == Call(d, b, args2, kw2).1
    ensures Call(Call(d, a, args1, kw1).0, b, args2, kw2).0.dataType == d.dataType
  {
  }

  /** The server group: three descriptors bound to "server". */
  function ServerNode(): Node<LatencyResource>
  {
    Group([("series", Leaf(New(Series, "server"))),
           ("summary", Leaf(New(Summary, "server"))),
           ("by_layer", Leaf(New(ByLayer, "server")))])
  }

  /** The client group: series and summary bound to "client", no by_layer. */
  function ClientNode(): Node<LatencyResource>
  {
    Group([("series", Leaf(New(Series, "client"))),
           ("summary", Leaf(New(Summary, "client")))])
  }

  function LatencyNode(): Node<LatencyResource>
  {
    Group([("server", ServerNode()), ("client", ClientNode())])
  }

  /** The attribute name of each operation. */
  function OpName(k: Kind): string
  {
    match k
    case Series => "series"
    case Summary => "summary"
    case ByLayer => "by_layer"
  }

  /** The shape of the namespace: `latency.server.<op>` exists for every
      operation, `latency.client.<op>` for all but by_layer, each reached
      descriptor carries its group's data type and no resolved path yet,
      and the root is not itself a descriptor. */
  lemma {:induction false} Shape(k: Kind)
    ensures Keys(LatencyNode().children) == ["server", "client"]
    ensures LatencyNode().own == None
    ensures At(LatencyNode(), ["server", OpName(k)]) == Some(New(k, "server"))
    ensures At(LatencyNode(), ["client", OpName(k)]) == if k == ByLayer then None else Some(New(k, "client"))
  {
    var root := LatencyNode();
    assert Child(root, "server") == Some(ServerNode());
    assert Child(root, "client") == Some(ClientNode());
    AtTwo(root, "server", OpName(k));
    AtTwo(root, "client", OpName(k));
    match k
    case Series =>
      assert Child(ServerNode(), "series") == Some(Leaf(New(Series, "server")));
      assert Child(ClientNode(), "series") == Some(Leaf(New(Series, "client")));
    case Summary =>
      assert Child(ServerNode(), "summary") == Some(Leaf(New(Summary, "server")));
      assert Child(ClientNode(), "summary") == Some(Leaf(New(Summary, "client")));
    case ByLayer =>
      assert Child(ServerNode(), "by_layer") == Some(Leaf(New(ByLayer, "server")));
      assert "by_layer" !in Keys(ClientNode().children);
  }

  /** The server and client series differ only in the data-type segment. */
  lemma SeriesSymmetry(app: string)
    ensures Call(New(Series, "server"), app, [], map[]).1.path == "latency/" + app + "/server/series"
    ensures Call(New(Series, "client"), app, [], map[]).1.path == "latency/" + app + "/client/series"
  {
    ConcatSegment(app, "server", "/series");
    ConcatSegment(app, "client", "/series");
  }

  lemma ConcatSegment(app: string, dataType: string, tail: string)
    ensures "latency/" + app + "/" + dataType + tail == "latency/" + app + ("/" + dataType + tail)
  {
  }
}

=== FILE: namespace.dfy ===
/** The read-only object trees that group descriptors: a node may itself
    be a descriptor (`own`) and has named attributes (`children`), built
    once in a fixed order. */
module Namespace {
  import opened Wrappers
  import opened Json

  datatype Node<L> = Node(own: Option<L>, children: seq<(string, Node<L>)>)

  function Leaf<L>(l: L): Node<L> { Node(Some(l), []) }

  function Group<L>(children: seq<(string, Node<L>)>): Node<L> { Node(None, children) }

  /** Attribute access `n.name`; None is Python's AttributeError. */
  function Child<L>(n: Node<L>, name: string): (r: Option<Node<L>>)
    ensures r.Some? <==> name in Keys(n.children)
    ensures r.Some? ==> exists i :: 0 <= i < |n.children| && n.children[i] == (name, r.value)
  {
    Find(n.children, name)
  }

  function Find<L>(children: seq<(string, Node<L>)>, name: string): (r: Option<Node<L>>)
    ensures r.Some? <==> name in Keys(children)
    ensures r.Some? ==> exists i :: 0 <= i < |children| && children[i] == (name, r.value)
  {
    if children == [] then None
    else if children[0].0 == name then Some(children[0].1)
    else Find(children[1..], name)
  }

  /** The descriptor reached by a chain of attribute accesses, if any. */
  function At<L>(n: Node<L>, path: seq<string>): Option<L>
    decreases |path|
  {
    if path == [] then n.own
    else match Child(n, path[0])
      case None => None
      case Some(c) => At(c, path[1..])
  }

  /** Two attribute accesses in a row, `n.a.b`. */
  lemma AtTwo<L>(n: Node<L>, a: string, b: string)
    ensures At(n, [a, b]) ==
      match Child(n, a)
      case None => None
      case Some(c) => match Child(c, b) case None => None case Some(g) => g.own
  {
    assert [a, b][1..] == [b];
    assert [b][1..] == [];
    match Child(n, a)
    case None =>
    case Some(c) =>
      assert At(n, [a, b]) == At(c, [b]);
      match Child(c, b)
      case None =>
      case Some(g) => assert At(c, [b]) == At(g, []);
  }

  /** The i-th attribute is found by its name when no earlier attribute
      has that name. */
  lemma {:induction false} FindIndex<L>(children: seq<(string, Node<L>)>, i: nat)
    requires i < |children|
    requires forall j :: 0 <= j < i ==> children[j].0 != children[i].0
    ensures Find(children, children[i].0) == Some(children[i].1)
    decreases i
  {
    if i > 0 {
      var tail := children[1..];
      assert tail[i - 1] == children[i];
      forall j | 0 <= j < i - 1 ensures tail[j].0 != tail[i - 1].0 {
        assert tail[j] == children[j + 1];
      }
      FindIndex(tail, i - 1);
    }
  }
}

=== FILE: pyformat.dfy ===
/** Python 2.7's `str.format` as the path templates meet it, with keyword
    arguments only: `{name}` is replaced by the keyword argument `name`,
    `{{` and `}}` stand for single braces, and a lone brace is an error. A
    field whose name is empty or all digits asks for a positional argument,
    of which there are none. Conversions, format specs, attribute and index
    access and nested fields are recognised, and the errors Python raises
    before it would apply them are modelled, but they are not interpreted. A
    template is also given as a sequence of segments, and the Python text
    of a template is `Source` of it. */
module PyFormat {
  import opened Wrappers

  /** `ValueError` is a malformed format string or field, or an argument
      name starting with a number too large for the parser; `KeyError(n)`
      is a field whose keyword `n` was not passed; `IndexError` is a
      positional field. `Unsupported` marks a field the model does not
      interpret: a nested field, whatever its name, or a conversion
      (`!r`), format spec (`:>8`), attribute or index access (`.x`, `[0]`)
      on a keyword that was passed. */
  datatype FormatError = ValueError | KeyError(name: string) | IndexError | Unsupported

  /** The keyword arguments of a `.format(...)` call. */
  type Args = map<string, string>

  predicate IsBrace(c: char) { c == '{' || c == '}' }

  predicate NoBraces(s: string)
  {
    forall i :: 0 <= i < |s| ==> !IsBrace(s[i])
  }

  /** The characters that end the argument name inside a field: the start
      of a conversion, a format spec, an attribute or an index. */
  predicate EndsKey(c: char) { c == '!' || c == ':' || c == '.' || c == '[' }

  predicate IsDigit(c: char) { '0' <= c <= '9' }

  /** The argument a field's text names: the text up to its first `!`,
      `:`, `.` or `[`. */
  function Key(f: string): (k: string)
    ensures |k| <= |f| && k == f[..|k|]
    ensures forall i :: 0 <= i < |k| ==> !EndsKey(k[i])
    ensures |k| < |f| ==> EndsKey(f[|k|])
  {
    if f == [] || EndsKey(f[0]) then [] else [f[0]] + Key(f[1..])
  }

  /** An empty or all-digit argument name refers to a positional argument. */
  predicate Positional(k: string)
  {
    forall i :: 0 <= i < |k| ==> IsDigit(k[i])
  }

  /** The largest index the format-string parser accepts: `PY_SSIZE_T_MAX`
      of a 64-bit build. A larger index raises ValueError ("Too many
      decimal digits"). */
  const MaxIndex: int := 0x7fff_ffff_ffff_ffff

  /** The number an all-digit name spells; the empty name (automatic
      numbering) asks for index 0. */
  function DigitsValue(k: string): nat
    requires Positional(k)
  {
    if k == [] then 0
    else
      var init := k[..|k| - 1];
      assert Positional(init) by {
        forall i | 0 <= i < |init| ensures IsDigit(init[i]) {
          assert init[i] == k[i];
        }
      }
      10 * DigitsValue(init) + (k[|k| - 1] as int - '0' as int)
  }

  /** The leading digits of an argument name. The parser reads them one by
      one and raises ValueError as soon as their value passes `MaxIndex`,
      before it meets a non-digit. */
  function DigitPrefix(k: string): (d: string)
    ensures |d| <= |k| && d == k[..|d|]
    ensures Positional(d)
    ensures |d| < |k| ==> !IsDigit(k[|d|])
  {
    if k == [] || !IsDigit(k[0]) then [] else [k[0]] + DigitPrefix(k[1..])
  }

  /** Where a field's name ends: at its first `!` or `:`, or at its end. */
  function NameEnd(f: string): (n: nat)
    ensures n <= |f|
    ensures forall i :: 0 <= i < n ==> f[i] != '!' && f[i] != ':'
    ensures n < |f| ==> f[n] == '!' || f[n] == ':'
  {
    if f == [] || f[0] == '!' || f[0] == ':' then 0 else 1 + NameEnd(f[1..])
  }

  /** The check made while a field is parsed, before any argument is
      looked up: a `!` that ends the name must be followed by one
      conversion character and then by `:` or the end of the field. */
  predicate ConversionParses(f: string)
  {
    var n := NameEnd(f);
    n < |f| && f[n] == '!' ==> n + 1 < |f| && (n + 2 == |f| || f[n + 2] == ':')
  }

  /** A field name that is a plain keyword: not empty, not starting with a
      digit, and free of braces and of the characters that start a
      conversion, format spec, attribute or index. Identifiers are such
      names. */
  predicate KeywordName(n: string)
  {
    && |n| > 0 && !IsDigit(n[0])
    && forall i :: 0 <= i < |n| ==> !IsBrace(n[i]) && !EndsKey(n[i])
  }

  /** The first index at or after `i` holding a brace, or `|s|`. */
  function FieldEnd(s: string, i: nat): (j: nat)
    requires i <= |s|
    ensures i <= j <= |s|
    ensures NoBraces(s[i..j])
    ensures j < |s| ==> IsBrace(s[j])
    decreases |s| - i
  {
    if i == |s| || IsBrace(s[i]) then i else FieldEnd(s, i + 1)
  }

  /** Prefixes a successful result with `p`; a failure propagates. */
  function Prepend(p: string, r: Result<string, FormatError>): Result<string, FormatError>
  {
    match r
    case Success(v) => Success(p + v)
    case Failure(e) => Failure(e)
  }

  /** `s.format(**args)`, scanned left to right so that the first problem
      met is the one raised. Within a field Python first parses the
      conversion, then reads the leading digits of the name, then looks
      the argument up, and only then applies attribute, index, conversion
      and format spec. */
  function Format(s: string, args: Args): Result<string, FormatError>
    decreases |s|
  {
    if s == [] then Success([])
    else if s[0] == '{' then
      if |s| >= 2 && s[1] == '{' then Prepend("{", Format(s[2..], args))
      else
        var j := FieldEnd(s, 1);
        if j == |s| then Failure(ValueError)
        else if s[j] == '{' then Failure(Unsupported)
        else
          var f := s[1..j];
          var k := Key(f);
          if !ConversionParses(f) then Failure(ValueError)
          else if DigitsValue(DigitPrefix(k)) > MaxIndex then Failure(ValueError)
          else if Positional(k) then Failure(IndexError)
          else if k !in args then Failure(KeyError(k))
          else if k != f then Failure(Unsupported)
          else Prepend(args[k], Format(s[j + 1..], args))
    else if s[0] == '}' then
      if |s| >= 2 && s[1] == '}' then Prepend("}", Format(s[2..], args))
      else Failure(ValueError)
    else Prepend([s[0]], Format(s[1..], args))
  }

  /** A piece of a template: literal text, or a named replacement field. */
  datatype Segment = Lit(text: string) | Hole(name: string)

  type Template = seq<Segment>

  /** Every field of the template is a plain keyword. */
  predicate WellFormed(t: Template)
  {
    forall i :: 0 <= i < |t| && t[i].Hole? ==> KeywordName(t[i].name)
  }

  predicate Bound(t: Template, args: Args)
  {
    forall i :: 0 <= i < |t| && t[i].Hole? ==> t[i].name in args
  }

  /** Literal text as it is written inside a format string. */
  function Escape(s: string): string
  {
    if s == [] then []
    else if IsBrace(s[0]) then [s[0], s[0]] + Escape(s[1..])
    else [s[0]] + Escape(s[1..])
  }

  /** The Python text of a template. */
  function Source(t: Template): string
  {
    if t == [] then []
    else match t[0]
      case Lit(x) => Escape(x) + Source(t[1..])
      case Hole(n) => "{" + n + "}" + Source(t[1..])
  }

  /** Fills every field of `t` from `args`; fails on the first unbound one. */
  function Render(t: Template, args: Args): (r: Result<string, FormatError>)
    ensures r.Success? <==> Bound(t, args)
    ensures r.Failure? ==> r.error.KeyError? && exists i :: 0 <= i < |t| && t[i] == Hole(r.error.name) && r.error.name !in args
  {
    if t == [] then Success([])
    else match t[0]
      case Lit(x) => Prepend(x, Render(t[1..], args))
      case Hole(n) =>
        if n in args then Prepend(args[n], Render(t[1..], args))
        else Failure(KeyError(n))
  }

  lemma PrependAssoc(a: string, b: string, r: Result<string, FormatError>)
    ensures Prepend(a, Prepend(b, r)) == Prepend(a + b, r)
  {
    if r.Success? {
      assert a + (b + r.value) == (a + b) + r.value;
    }
  }

  /** Escaped literal text formats back to itself, whatever follows it. */
  lemma {:induction false} FormatEscaped(x: string, rest: string, args: Args)
    ensures Format(Escape(x) + rest, args) == Prepend(x, Format(rest, args))
  {
    if x == [] {
      FormatEscapedEmpty(rest, args);
    } else {
      FormatEscaped(x[1..], rest, args);
      FormatEscapedStep(x, rest, args);
    }
  }

  lemma FormatEscapedEmpty(rest: string, args: Args)
    ensures Format(Escape([]) + rest, args) == Prepend([], Format(rest, args))
  {
    assert Escape([]) + rest == rest;
    var r := Format(rest, args);
    if r.Success? {
      assert [] + r.value == r.value;
    }
  }

  /** One character of escaped text, given the rest of it. */
  lemma FormatEscapedStep(x: string, rest: string, args: Args)
    requires x != []
    requires Format(Escape(x[1..]) + rest, args) == Prepend(x[1..], Format(rest, args))
    ensures Format(Escape(x) + rest, args) == Prepend(x, Format(rest, args))
  {
    var c, tail := x[0], Escape(x[1..]) + rest;
    if IsBrace(c) {
      EscapeBrace(x, rest);
      FormatDoubled(c, tail, args);
    } else {
      EscapePlain(x, rest);
      FormatPlain(c, tail, args);
    }
    PrependAssoc([c], x[1..], Format(rest, args));
    assert [c] + x[1..] == x;
  }

  lemma EscapeBrace(x: string, rest: string)
    requires x != [] && IsBrace(x[0])
    ensures Escape(x) + rest == [x[0], x[0]] + (Escape(x[1..]) + rest)
  {
  }

  lemma EscapePlain(x: string, rest: string)
    requires x != [] && !IsBrace(x[0])
    ensures Escape(x) + rest == [x[0]] + (Escape(x[1..]) + rest)
  {
  }

  lemma FormatPlain(c: char, tail: string, args: Args)
    requires !IsBrace(c)
    ensures Format([c] + tail, args) == Prepend([c], Format(tail, args))
  {
    assert ([c] + tail)[1..] == tail;
  }

  lemma FormatDoubled(c: char, tail: string, args: Args)
    requires IsBrace(c)
    ensures Format([c, c] + tail, args) == Prepend([c], Format(tail, args))
  {
    assert ([c, c] + tail)[2..] == tail;
  }

  /** A plain keyword field followed by anything formats as that field. */
  lemma FormatField(n: string, rest: string, args: Args)
    requires KeywordName(n)
    ensures Format("{" + n + "}" + rest, args) ==
      if n in args then Prepend(args[n], Format(rest, args)) else Failure(KeyError(n))
  {
    var s := "{" + n + "}" + rest;
    assert NoBraces(n);
    FieldEndAt(s, 1, |n| + 1);
    assert s[1..|n| + 1] == n;
    assert s[|n| + 2..] == rest;
    KeyOfKeyword(n);
    assert !Positional(n) by { assert !IsDigit(n[0]); }
  }

  lemma KeyOfKeyword(n: string)
    requires KeywordName(n)
    ensures Key(n) == n && NameEnd(n) == |n| && ConversionParses(n) && DigitPrefix(n) == []
  {
    assert !IsDigit(n[0]);
  }

  /** A field naming a position raises IndexError, as no positional
      argument is ever passed, or ValueError when the index is beyond
      `MaxIndex`. */
  lemma FormatPositional(n: string, rest: string, args: Args)
    requires NoBraces(n) && Positional(n)
    ensures Format("{" + n + "}" + rest, args) ==
      Failure(if DigitsValue(n) > MaxIndex then ValueError else IndexError)
  {
    var s := "{" + n + "}" + rest;
    FieldEndAt(s, 1, |n| + 1);
    assert s[1..|n| + 1] == n;
    KeyOfDigits(n);
  }

  /** A conversion on a plain keyword: the keyword is looked up first, so
      an absent one raises KeyError; on a passed one the conversion is not
      interpreted. */
  lemma FormatConversion(n: string, c: char, rest: string, args: Args)
    requires KeywordName(n) && !IsBrace(c)
    ensures Format("{" + n + "!" + [c] + "}" + rest, args) ==
      if n in args then Failure(Unsupported) else Failure(KeyError(n))
  {
    var f := n + "!" + [c];
    var s := "{" + f + "}" + rest;
    assert s == "{" + n + "!" + [c] + "}" + rest;
    assert NoBraces(f) by {
      forall i | 0 <= i < |f| ensures !IsBrace(f[i]) {
        if i < |n| { assert f[i] == n[i]; }
      }
    }
    FieldEndAt(s, 1, |f| + 1);
    assert s[1..|f| + 1] == f;
    KeyOfKeyword(n);
    KeyThenStop(n, f);
    NameEndThenBang(n, f);
    assert f[|n|] == '!' && |f| == |n| + 2;
  }

  lemma KeyThenStop(n: string, f: string)
    requires KeywordName(n) && |n| < |f| && f[..|n|] == n && EndsKey(f[|n|])
    ensures Key(f) == n
  {
    if |n| > 1 {
      var n' := n[1..];
      assert KeywordName(n') || IsDigit(n'[0]);
      KeyThenStopAny(n', f[1..]);
    }
  }

  lemma KeyThenStopAny(n: string, f: string)
    requires |n| < |f| && f[..|n|] == n && EndsKey(f[|n|])
    requires forall i :: 0 <= i < |n| ==> !EndsKey(n[i])
    ensures Key(f) == n
  {
    if n != [] {
      assert f[0] == n[0];
      KeyThenStopAny(n[1..], f[1..]);
    }
  }

  lemma NameEndThenBang(n: string, f: string)
    requires forall i :: 0 <= i < |n| ==> n[i] != '!' && n[i] != ':'
    requires |n| < |f| && f[..|n|] == n && f[|n|] == '!'
    ensures NameEnd(f) == |n|
  {
    if n != [] {
      assert f[0] == n[0];
      NameEndThenBang(n[1..], f[1..]);
    }
  }

  lemma KeyOfDigits(n: string)
    requires Positional(n)
    ensures Key(n) == n
  {
    if n != [] {
      assert IsDigit(n[0]);
      assert Positional(n[1..]) by {
        forall i | 0 <= i < |n| - 1 ensures IsDigit(n[1..][i]) {
          assert n[1..][i] == n[i + 1];
        }
      }
      KeyOfDigits(n[1..]);
    }
  }

  lemma FieldEndAt(s: string, i: nat, j: nat)
    requires i <= j < |s|
    requires NoBraces(s[i..j]) && IsBrace(s[j])
    ensures FieldEnd(s, i) == j
    decreases j - i
  {
    if i < j {
      assert s[i] == s[i..j][0];
      assert s[i + 1..j] == s[i..j][1..];
      FieldEndAt(s, i + 1, j);
    }
  }

  /** Formatting the Python text of a template is rendering the template:
      the two descriptions of a path template agree. */
  lemma {:induction false} FormatSource(t: Template, args: Args)
    requires WellFormed(t)
    ensures Format(Source(t), args) == Render(t, args)
  {
    if t != [] {
      assert WellFormed(t[1..]) by {
        forall i | 0 <= i < |t[1..]| && t[1..][i].Hole? ensures KeywordName(t[1..][i].name) {
          assert t[1..][i] == t[i + 1];
        }
      }
      FormatSource(t[1..], args);
      match t[0]
      case Lit(x) =>
        FormatEscaped(x, Source(t[1..]), args);
      case Hole(n) =>
        assert KeywordName(n) by { assert t[0].Hole?; }
        FormatField(n, Source(t[1..]), args);
    }
  }

  /** Brace-free text is a fixed point of formatting: it holds no field. */
  lemma {:induction false} FormatNoBraces(s: string, args: Args)
    requires NoBraces(s)
    ensures Format(s, args) == Success(s)
  {
    if s != [] {
      assert NoBraces(s[1..]) by {
        forall i | 0 <= i < |s[1..]| ensures !IsBrace(s[1..][i]) {
          assert s[1..][i] == s[i + 1];
        }
      }
      FormatNoBraces(s[1..], args);
      assert [s[0]] + s[1..] == s;
    }
  }

  lemma NoBracesConcat(a: string, b: string)
    requires NoBraces(a) && NoBraces(b)
    ensures NoBraces(a + b)
  {
    var s := a + b;
    forall i | 0 <= i < |s| ensures !IsBrace(s[i]) {
      if i >= |a| { assert s[i] == b[i - |a|]; }
    }
  }

  /** Brace-free text is its own escape. */
  lemma EscapeNoBraces(s: string)
    requires NoBraces(s)
    ensures Escape(s) == s
  {
    FormatEscaped(s, [], map[]);
    FormatNoBraces(s, map[]);
    assert Escape(s) + [] == Escape(s);
    assert s + [] == s;
  }

  /** A brace-free prefix is copied to the output unchanged. */
  lemma FormatLiteralPrefix(pre: string, rest: string, args: Args)
    requires NoBraces(pre)
    ensures Format(pre + rest, args) == Prepend(pre, Format(rest, args))
  {
    EscapeNoBraces(pre);
    FormatEscaped(pre, rest, args);
  }

  /** A brace-free text, then a bound field, then anything. */
  lemma FormatFieldThen(pre: string, name: string, rest: string, args: Args)
    requires NoBraces(pre) && KeywordName(name)
    requires name in args
    ensures Format(pre + "{" + name + "}" + rest, args) == Prepend(pre + args[name], Format(rest, args))
  {
    assert pre + "{" + name + "}" + rest == pre + ("{" + name + "}" + rest);
    FormatLiteralPrefix(pre, "{" + name + "}" + rest, args);
    FormatField(name, rest, args);
    PrependAssoc(pre, args[name], Format(rest, args));
  }

  /** A template with one field between brace-free texts. */
  lemma FormatOneField(pre: string, name: string, post: string, args: Args)
    requires NoBraces(pre) && KeywordName(name) && NoBraces(post)
    requires name in args
    ensures Format(pre + "{" + name + "}" + post, args) == Success(pre + args[name] + post)
  {
    FormatFieldThen(pre, name, post, args);
    FormatNoBraces(post, args);
  }

  /** A template with two fields between brace-free texts. */
  lemma FormatTwoFields(pre: string, n1: string, mid: string, n2: string, post: string, args: Args)
    requires NoBraces(pre) && KeywordName(n1) && NoBraces(mid) && KeywordName(n2) && NoBraces(post)
    requires n1 in args && n2 in args
    ensures Format(pre + "{" + n1 + "}" + mid + "{" + n2 + "}" + post, args)
         == Success(pre + args[n1] + mid + args[n2] + post)
  {
    var second := mid + "{" + n2 + "}" + post;
    assert pre + "{" + n1 + "}" + mid + "{" + n2 + "}" + post == pre + "{" + n1 + "}" + second;
    FormatFieldThen(pre, n1, second, args);
    FormatOneField(mid, n2, post, args);
    PrependAssoc(pre + args[n1], mid + args[n2], Success(post));
    assert (pre + args[n1]) + (mid + args[n2] + post) == pre + args[n1] + mid + args[n2] + post;
  }
}

=== FILE: resource.dfy ===
/** The base class of the new-style descriptors (traceview/resource.py)
    stores only the API handle. The new-style descriptors set their
    resolved path and then call an inherited `get`, `delete` or `__call__`
    that this base class does not define; that call is modelled as the
    record of what is handed to it. */
module Resource {
  import opened Json

  /** Which inherited operation a descriptor invokes. */
  datatype Op = GetOp | DeleteOp | CallOp

  /** The inherited call: the operation, the path the descriptor resolved
      for it, and the positional and keyword arguments passed on. */
  datatype Dispatch = Dispatch(op: Op, path: string, args: seq<Json>, kwargs: map<string, Json>)
}

=== FILE: resources.dfy ===
/** traceview/resources.py, the older descriptor layer. A descriptor
    builds its own absolute URL from its `PATH`, adds the API key to the
    keyword arguments of a call, and performs the GET itself. The layer and
    latency descriptors format their template and store the result back
    into `PATH`, so every call after the first reuses the first call's
    path. */
module Resources {
  import opened Wrappers
  import opened Json
  import opened PyFormat
  import opened Namespace
  import Api
  import Latency
  import Discovery

  /** The descriptor classes: those that only inherit `__call__`, and the
      four that override it to fill a template. */
  datatype Kind = Plain | Layer | Series | Summary | ByLayer

  /** A descriptor instance: the API key, its class, its current `PATH`
      (None for the base class) and, for the latency classes, the data type
      it was built with. */
  datatype OldResource = OldResource(apiKey: string, kind: Kind, PATH: Option<string>, dataType: Option<string>)

  /** The class-level template of each overriding class. */
  function ClassPATH(k: Kind): string
    requires k != Plain
  {
    match k
    case Layer => "layers/{app}"
    case Series => "latency/{app}/{data_type}/series"
    case Summary => "latency/{app}/{data_type}/summary"
    case ByLayer => "latency/{app}/{data_type}/by-layer"
  }

  function NewUser(apiKey: string): OldResource { OldResource(apiKey, Plain, Some("organization/users"), None) }
  function NewOrganization(apiKey: string): OldResource { OldResource(apiKey, Plain, Some("organization"), None) }
  function NewLayer(apiKey: string): OldResource { OldResource(apiKey, Layer, Some(ClassPATH(Layer)), None) }

  /** `Series`, `Summary` or `ByLayer` built with a data type. */
  function NewLatency(k: Kind, dataType: string, apiKey: string): OldResource
    requires k == Series || k == Summary || k == ByLayer
  {
    OldResource(apiKey, k, Some(ClassPATH(k)), Some(dataType))
  }

  /** A descriptor as its constructor leaves it. */
  predicate Fresh(d: OldResource)
  {
    && d.kind != Plain
    && d.PATH == Some(ClassPATH(d.kind))
    && (d.kind == Layer <==> d.dataType.None?)
  }

  /** `str(PATH)`: a missing template prints as "None". */
  function PathText(p: Option<string>): string
  {
    match p
    case Some(s) => s
    case None => "None"
  }

  /** The `path` property. It always yields a string, so the `path is
      None` guard of `get` can never fire; a descriptor without a template
      addresses ".../api-v2/None". */
  function Path(d: OldResource): (p: string)
    ensures p == Api.Url(PathText(d.PATH))
    ensures d.PATH.None? ==> p == "https://api.tv.appneta.com/api-v2/None"
  {
    Api.Authority + "/" + Api.Version + "/" + PathText(d.PATH)
  }

  /** The check `get` makes on a response: a non-200 raises a plain
      Exception with the status, the URL and the body text. */
  function Classify(url: string, resp: Api.Response): (r: Result<Json, Api.Error>)
    ensures resp.status != Api.StatusOk ==> r == Failure(Api.StatusException(resp.status, url, resp.text))
    ensures r.Success? <==> resp.status == Api.StatusOk && Api.Payload(resp).Some?
    ensures r.Success? ==> Api.Payload(resp) == Some(r.value)
  {
    if resp.status != Api.StatusOk then Failure(Api.StatusException(resp.status, url, resp.text))
    else match Api.Payload(resp)
      case Some(data) => Success(data)
      case None => Failure(Api.MalformedPayload)
  }

  /** `get(params=None)`: one GET to `path` with the given parameters (an
      empty dict when none are given; the key is not added here). */
  function Get(d: OldResource, params: Option<Api.QueryParams>, transport: Api.HttpCall -> Api.Response)
    : (x: Api.Exchange)
    ensures |x.sent| == 1
    ensures x.sent[0].verb == Api.GET && x.sent[0].url == Path(d)
    ensures params.None? ==> x.sent[0].params == map[]
    ensures params.Some? ==> x.sent[0].params == params.value
    ensures x.result == Classify(Path(d), transport(x.sent[0]))
  {
    var call := Api.HttpCall(Api.GET, Path(d), if params.None? then map[] else params.value);
    Api.Exchange([call], Classify(Path(d), transport(call)))
  }

  /** The inherited `__call__(self, *args, **kwargs)`: the keyword
      arguments plus the key become the query; positional arguments are
      dropped. A `self` keyword cannot be bound: Python raises TypeError
      and nothing is sent. */
  function Call(d: OldResource, args: seq<Json>, kwargs: map<string, Json>,
                transport: Api.HttpCall -> Api.Response): (x: Api.Exchange)
    ensures "self" in kwargs ==> x == Api.Exchange([], Failure(Api.BadArguments))
    ensures "self" !in kwargs ==>
      && |x.sent| == 1
      && x.sent[0].verb == Api.GET && x.sent[0].url == Path(d)
      && x.sent[0].params == Api.BuildQueryParams(d.apiKey, Api.Dict(kwargs))
      && x.sent[0].params[Api.KeyParam] == JStr(d.apiKey)
      && x.result == Classify(Path(d), transport(x.sent[0]))
  {
    if "self" in kwargs then Api.Exchange([], Failure(Api.BadArguments))
    else Get(d, Some(Api.BuildQueryParams(d.apiKey, Api.Dict(kwargs))), transport)
  }

  /** The keyword arguments the overriding `__call__` passes to `format`. */
  function FormatArgs(d: OldResource, app: string): Args
  {
    match d.dataType
    case None => map["app" := app]
    case Some(dt) => map["app" := app, "data_type" := dt]
  }

  /** The latency template class of an overriding latency descriptor. */
  function LatencyKind(k: Kind): Latency.Kind
    requires k == Series || k == Summary || k == ByLayer
  {
    match k
    case Series => Latency.Series
    case Summary => Latency.Summary
    case _ => Latency.ByLayer
  }

  /** The path a fresh descriptor resolves for `app`. */
  function FirstPath(d: OldResource, app: string): (p: string)
    requires Fresh(d)
    ensures Format(ClassPATH(d.kind), FormatArgs(d, app)) == Success(p)
    ensures d.kind == Layer ==> p == "layers/" + app
    ensures d.kind != Layer ==>
      p == "latency/" + app + "/" + d.dataType.value + Latency.Tail(LatencyKind(d.kind))
  {
    if d.kind == Layer then
      Discovery.FormatLayerPATH(app);
      "layers/" + app
    else
      assert ClassPATH(d.kind) == Latency.PATH(LatencyKind(d.kind));
      Latency.Resolve(LatencyKind(d.kind), app, d.dataType.value)
  }

  /** Keyword arguments that `__call__(self, app, *args, **kwargs)` cannot
      bind: Python raises TypeError for a second value of `app` or `self`
      before the body runs. */
  predicate BindingClash(kwargs: map<string, Json>)
  {
    "app" in kwargs || "self" in kwargs
  }

  /** The overriding `__call__(app, *args, **kwargs)` of `Layer`, `Series`,
      `Summary` and `ByLayer`: `PATH` is replaced by `PATH.format(...)`,
      then the inherited `__call__` runs. If the arguments cannot be bound,
      `PATH` is None or formatting raises, nothing is stored and nothing
      is sent. */
  function Invoke(d: OldResource, app: string, args: seq<Json>, kwargs: map<string, Json>,
                  transport: Api.HttpCall -> Api.Response): (r: (OldResource, Api.Exchange))
    requires d.kind != Plain
    ensures r.0.apiKey == d.apiKey && r.0.kind == d.kind && r.0.dataType == d.dataType
    ensures BindingClash(kwargs) ==> r == (d, Api.Exchange([], Failure(Api.BadArguments)))
    ensures !BindingClash(kwargs) && d.PATH.None? ==> r == (d, Api.Exchange([], Failure(Api.NoTemplate)))
    ensures !BindingClash(kwargs) && d.PATH.Some? && Format(d.PATH.value, FormatArgs(d, app)).Failure? ==>
      r == (d, Api.Exchange([], Failure(Api.FormatFailed(Format(d.PATH.value, FormatArgs(d, app)).error))))
    ensures !BindingClash(kwargs) && d.PATH.Some? && Format(d.PATH.value, FormatArgs(d, app)).Success? ==>
      && r.0.PATH == Some(Format(d.PATH.value, FormatArgs(d, app)).value)
      && r.1 == Call(r.0, args, kwargs, transport)
    ensures Fresh(d) && !BindingClash(kwargs) ==>
      r.0.PATH == Some(FirstPath(d, app)) && r.1.sent[0].url == Api.Url(FirstPath(d, app))
  {
    if BindingClash(kwargs) then (d, Api.Exchange([], Failure(Api.BadArguments)))
    else match d.PATH
      case None => (d, Api.Exchange([], Failure(Api.NoTemplate)))
      case Some(t) =>
        match Format(t, FormatArgs(d, app))
        case Failure(e) => (d, Api.Exchange([], Failure(Api.FormatFailed(e))))
        case Success(p) =>
          var d' := d.(PATH := Some(p));
          (d', Call(d', args, kwargs, transport))
  }

  /** After a first call with brace-free arguments, a second call sends its
      request to the very URL of the first, whatever app it names (as long
      as both calls' keywords can be bound). */
  lemma SecondCallRepeatsFirst(d: OldResource, a: string, b: string,
                               args1: seq<Json>, kw1: map<string, Json>,
                               args2: seq<Json>, kw2: map<string, Json>,
                               transport: Api.HttpCall -> Api.Response)
    requires Fresh(d)
    requires NoBraces(a)
    requires d.dataType.Some? ==> NoBraces(d.dataType.value)
    requires !BindingClash(kw1) && !BindingClash(kw2)
    ensures var first := Invoke(d, a, args1, kw1, transport);
            var second := Invoke(first.0, b, args2, kw2, transport);
            && second.0 == first.0
            && |second.1.sent| == 1
            && second.1.sent[0].url == first.1.sent[0].url == Api.Url(FirstPath(d, a))
  {
    var p := FirstPath(d, a);
    var first := Invoke(d, a, args1, kw1, transport);
    assert first.0.PATH == Some(p);
    FirstPathBraceFree(d, a);
    FormatNoBraces(p, FormatArgs(first.0, b));
    assert first.0.(PATH := Some(p)) == first.0;
  }

  lemma FirstPathBraceFree(d: OldResource, a: string)
    requires Fresh(d)
    requires NoBraces(a)
    requires d.dataType.Some? ==> NoBraces(d.dataType.value)
    ensures NoBraces(FirstPath(d, a))
  {
    if d.kind == Layer {
      assert NoBraces("layers/");
      NoBracesConcat("layers/", a);
    } else {
      var dt := d.dataType.value;
      var tail := Latency.Tail(LatencyKind(d.kind));
      Latency.TemplateText(LatencyKind(d.kind), tail);
      assert NoBraces("latency/") && NoBraces("/");
      FiveBraceFree("latency/", a, "/", dt, tail);
    }
  }

  lemma FiveBraceFree(p: string, a: string, m: string, b: string, t: string)
    requires NoBraces(p) && NoBraces(a) && NoBraces(m) && NoBraces(b) && NoBraces(t)
    ensures NoBraces(p + a + m + b + t)
  {
    NoBracesConcat(p, a);
    NoBracesConcat(p + a, m);
    NoBracesConcat(p + a + m, b);
    NoBracesConcat(p + a + m + b, t);
  }

  /** The path a fresh descriptor resolves names the app: different apps
      give different paths. */
  lemma FirstPathInjective(d: OldResource, a: string, b: string)
    requires Fresh(d)
    requires FirstPath(d, a) == FirstPath(d, b)
    ensures a == b
  {
    if d.kind == Layer {
      AppendEmpty("layers/" + a);
      AppendEmpty("layers/" + b);
      SameMiddle("layers/", a, b, "");
    } else {
      var t := "/" + d.dataType.value + Latency.Tail(LatencyKind(d.kind));
      FirstPathLatency(d, a);
      FirstPathLatency(d, b);
      SameMiddle("latency/", a, b, t);
    }
  }

  lemma AppendEmpty(s: string)
    ensures s + "" == s
  {
  }

  lemma FirstPathLatency(d: OldResource, a: string)
    requires Fresh(d) && d.kind != Layer
    ensures FirstPath(d, a) == "latency/" + a + ("/" + d.dataType.value + Latency.Tail(LatencyKind(d.kind)))
  {
    var dt, tail := d.dataType.value, Latency.Tail(LatencyKind(d.kind));
    assert "latency/" + a + "/" + dt + tail == "latency/" + a + ("/" + dt + tail);
  }

  /** So for a second app different from the first, the second request
      does not go to the second app's path. */
  lemma SecondCallWrong(d: OldResource, a: string, b: string, transport: Api.HttpCall -> Api.Response)
    requires Fresh(d)
    requires NoBraces(a) && a != b
    requires d.dataType.Some? ==> NoBraces(d.dataType.value)
    ensures var first := Invoke(d, a, [], map[], transport);
            var second := Invoke(first.0, b, [], map[], transport);
            |second.1.sent| == 1 && second.1.sent[0].url != Api.Url(FirstPath(d, b))
  {
    SecondCallRepeatsFirst(d, a, b, [], map[], [], map[], transport);
    if Api.Url(FirstPath(d, a)) == Api.Url(FirstPath(d, b)) {
      Api.UrlInjective(FirstPath(d, a), FirstPath(d, b));
      FirstPathInjective(d, a, b);
    }
  }

  /** `p + a + t == p + b + t` forces `a == b`. */
  lemma SameMiddle(p: string, a: string, b: string, t: string)
    requires p + a + t == p + b + t
    ensures a == b
  {
    assert |a| == |b|;
    assert a == (p + a + t)[|p|..|p| + |a|];
    assert b == (p + b + t)[|p|..|p| + |b|];
  }

  /** `Organization(api_key)`: a descriptor of its own, with the `users`
      descriptor as its one attribute. */
  function OrganizationNode(apiKey: string): Node<OldResource>
  {
    Node(Some(NewOrganization(apiKey)), [("users", Leaf(NewUser(apiKey)))])
  }

  function ServerNode(apiKey: string): Node<OldResource>
  {
    Group([("series", Leaf(NewLatency(Series, "server", apiKey))),
           ("summary", Leaf(NewLatency(Summary, "server", apiKey))),
           ("by_layer", Leaf(NewLatency(ByLayer, "server", apiKey)))])
  }

  function ClientNode(apiKey: string): Node<OldResource>
  {
    Group([("series", Leaf(NewLatency(Series, "client", apiKey))),
           ("summary", Leaf(NewLatency(Summary, "client", apiKey)))])
  }

  function LatencyNode(apiKey: string): Node<OldResource>
  {
    Group([("server", ServerNode(apiKey)), ("client", ClientNode(apiKey))])
  }

  /** `organization.users` addresses "organization/users"; the
      organization itself addresses "organization". */
  lemma {:induction false} OrganizationShape(apiKey: string)
    ensures Keys(OrganizationNode(apiKey).children) == ["users"]
    ensures Path(OrganizationNode(apiKey).own.value) == Api.Url("organization")
    ensures Child(OrganizationNode(apiKey), "users").Some?
    ensures Path(Child(OrganizationNode(apiKey), "users").value.own.value) == Api.Url("organization/users")
  {
    assert Child(OrganizationNode(apiKey), "users") == Some(Leaf(NewUser(apiKey)));
  }

  /** The attribute name of each latency operation. */
  function OpName(k: Kind): string
    requires k == Series || k == Summary || k == ByLayer
  {
    match k
    case Series => "series"
    case Summary => "summary"
    case _ => "by_layer"
  }

  /** In the latency tree every operation exists under `server`, built
      with "server" as data type. */
  lemma {:induction false} ServerShape(k: Kind, apiKey: string)
    requires k == Series || k == Summary || k == ByLayer
    ensures Keys(LatencyNode(apiKey).children) == ["server", "client"]
    ensures At(LatencyNode(apiKey), ["server", OpName(k)]) == Some(NewLatency(k, "server", apiKey))
  {
    var root := LatencyNode(apiKey);
    var server := ServerNode(apiKey);
    assert Child(root, "server") == Some(server);
    AtTwo(root, "server", OpName(k));
    match k
    case Series => FindIndex(server.children, 0);
    case Summary => FindIndex(server.children, 1);
    case ByLayer => FindIndex(server.children, 2);
  }

  /** Under `client` every operation but `by_layer` exists, built with
      "client" as data type. */
  lemma {:induction false} ClientShape(k: Kind, apiKey: string)
    requires k == Series || k == Summary || k == ByLayer
    ensures At(LatencyNode(apiKey), ["client", OpName(k)])
         == if k == ByLayer then None else Some(NewLatency(k, "client", apiKey))
  {
    var root := LatencyNode(apiKey);
    var client := ClientNode(apiKey);
    assert Child(root, "client") == Some(client);
    AtTwo(root, "client", OpName(k));
    match k
    case Series => FindIndex(client.children, 0);
    case Summary => FindIndex(client.children, 1);
    case ByLayer => assert "by_layer" !in Keys(client.children);
  }
}

=== FILE: total_request.dfy ===
/** traceview/total_request.py: the total-requests series descriptor. */
module TotalRequest {
  import opened Wrappers
  import opened Json
  import opened PyFormat
  import opened Resource

  const PATH: string := "total_requests/{app}/series"

  datatype RequestsResource = RequestsResource(path: Option<string>)

  /** `Requests.get(app, *args, **kwargs)`. */
  function Get(d: RequestsResource, app: string, args: seq<Json>, kwargs: map<string, Json>)
    : (r: (RequestsResource, Dispatch))
    ensures r.0 == RequestsResource(Some(r.1.path))
    ensures r.1.op == GetOp && r.1.args == args && r.1.kwargs == kwargs
    ensures Format(PATH, map["app" := app]) == Success(r.1.path)
    ensures r.1.path == "total_requests/" + app + "/series"
  {
    assert PATH == "total_requests/" + "{" + "app" + "}" + "/series";
    FormatOneField("total_requests/", "app", "/series", map["app" := app]);
    var p := "total_requests/" + app + "/series";
    (RequestsResource(Some(p)), Dispatch(GetOp, p, args, kwargs))
  }

  lemma CallsIndependent(d: RequestsResource, a: string, b: string, args: seq<Json>, kwargs: map<string, Json>)
    ensures Get(Get(d, a, args, kwargs).0, b, args, kwargs).1 == Get(d, b, args, kwargs).1
  {
  }
}

=== FILE: wrappers.dfy ===
/** Option and Result, the two wrappers the rest of the model uses for
    "no value" and "raised an exception". */
module Wrappers {

  datatype Option<+T> = None | Some(value: T)

  /** A Python call either returns a value or raises; `Failure` carries
      what was raised. */
  datatype Result<+T, +E> = Success(value: T) | Failure(error: E)
}
